=== FILE: README.md ===
# cybpass password pipeline in Dafny

This project models the password generation and scoring core of cybpass, a
terminal tool that turns personal answers (name, birthday, favourite things)
into a list of candidate passwords and rates each one. Two generations of the
tool exist side by side. `CybPss.py` is the current one. `password_generator.py`
is the older, smaller one. Both are modelled.

- `chars.dfy` (module `Chars`): ASCII character classes, the literal special
  set, the alphabets random characters are drawn from, and the clean-up
  `replace(" ", "").lower()` applied to every base text.
- `pystr.dfy` (module `PyStr`): the Python string operations the pipeline
  relies on: slicing with Python's rules, `str(int)`, `zfill`, substring
  search, and the `random.choices` draw contract.
- `shuffle.dfy` (module `Shuffle`): `random.shuffle` as Python's own
  Fisher-Yates pass, driven by a supplied draw function, and `list(set(xs))`
  as de-duplication followed by a reorder.
- `analyzer.dfy` (modules `Analyzer` and `Strength`): `analyze_strength`,
  `get_strength_level`, and the older `calculate_strength` scorer, which is the
  same in both source files.
- `profile.dfy` (module `Profile`): the answers `ask_questions` collects and
  the validation it applies: count, month, day, the large-count confirmation
  and the "none" pet answer.
- `variations.dfy` (module `Variations`): the eight-variation
  `generate_password_variations`. Variations 1 to 5 are shared with the older
  generator.
- `random_password.dfy` (module `RandomPassword`):
  `generate_random_enhanced_password`.
- `generate.dfy` (module `Pool`): the current `generate_passwords`. It builds
  the natural pool, de-duplicates and shuffles it, then cuts it or tops it up
  to the requested count.
- `legacy.dfy` (module `Legacy`): the older `generate_passwords` and its
  five-variation generator.

Randomness is explicit. Every `random.choices(alphabet, k=k)` call is a
string parameter with exactly `max(k, 0)` characters, all from the alphabet.
Every `random.shuffle` is a function `pick` from positions to draws. The
Fisher-Yates pass swaps position `i` with `pick(i) % (i + 1)`, so every
outcome of the real shuffle is covered. Every `random.choice`, `randint` and
`sample` is a parameter constrained to its possible outcomes. A `Fits`
predicate per operation states that the supplied draws are possible ones.

Facts about the code that a reader might not expect:

- The `analyze_strength` score lies in [-1, 6] (CybPss.py:109-124): a length
  bonus of at most 2, plus at most 4 classes, minus 1 for a common pattern.
  The displays print it as out of 8 (CybPss.py:646, 658, 682, 750), but no
  analysed password reaches 7, so none is ever labelled "Very Strong".
- The top-up `while` loop at CybPss.py:574 has no iteration cap. It runs
  until the de-duplicated pool reaches the requested count.
- `self.passwords` is set to an empty list only in the constructor
  (CybPss.py:225). A second generation starts from the pool the first one
  left, so both `GeneratePasswords` functions take that earlier pool as
  `previous`.
- The special-character set tested at CybPss.py:103 has 26 characters, but
  the charset size behind the entropy estimate adds 32 for it
  (CybPss.py:136).
- The older generator does not filter blank answers
  (password_generator.py:114-124). It also runs the combined text through the
  generator even when it is empty (password_generator.py:127-129).

## Model

| member | source | states |
|---|---|---|
| Chars.SpecialText | CybPss.py:103 | the special class is exactly membership in the 26-character literal set the scorers test against |
| Chars.AllowsText | CybPss.py:415-462 | each draw alphabet (digits, letters, "!@#$%^&*", digits plus "!@#" or "!@#$%", ...) allows exactly the characters of its literal text |
| Chars.CleanInfo | CybPss.py:406 | the cleaned base has no space and no upper-case letter, and is shorter than the input by exactly its number of spaces |
| Chars.CleanInfoAppend | CybPss.py:406 | cleaning a concatenation cleans each part, so the clean-up works character by character |
| Chars.CleanInfoChar | CybPss.py:406 | one character is dropped when it is a space and lower-cased otherwise; with `CleanInfoAppend`, the cleaned text is the input's non-space characters, in order, lower-cased |
| Chars.CleanInfoIdempotent | CybPss.py:533-535 | cleaning already-cleaned text changes nothing, so the joined group text is not altered again by the generator |
| Chars.JoinCleaned | CybPss.py:533 | the join of cleaned answers is itself clean: no space, no upper case, a fixed point of the clean-up |
| Chars.JoinCleanedIsCleanConcat | CybPss.py:533 | cleaning each answer and joining equals joining the raw answers and cleaning once, so the join holds the answers' non-space characters, in order, lower-cased |
| PyStr.IntToStrRoundTrip | CybPss.py:409-412 | `str(n)` is an integer literal and `int(str(n)) == n` for every integer |
| PyStr.ZFillKeepsValue | CybPss.py:410-411 | for `m >= 0`, `str(m).zfill(w)` is all digits, `max(w, len(str(m)))` long, and has the value `m` |
| Shuffle.FisherYatesPermutes | CybPss.py:559 | a shuffle is a permutation: same multiset, same members, and a duplicate-free list stays duplicate-free |
| Shuffle.Dedup | CybPss.py:556 | `list(set(xs))` holds every element of `xs` exactly once and nothing else |
| Shuffle.DedupIdempotent | CybPss.py:605 | de-duplicating an already de-duplicated pool changes nothing |
| Shuffle.DedupExtends | CybPss.py:601-605 | adding a batch to a duplicate-free pool keeps the whole pool and appends only the new candidates |
| Analyzer.LengthBonus | CybPss.py:109-113 | the length part of the score is 2 exactly from 12 characters on, 0 exactly below 8, and otherwise 1 |
| Analyzer.Recommendations | CybPss.py:123-151 | each piece of advice appears exactly when its condition holds, the list has one entry per condition that holds, the pattern warning comes first and the length advice last |
| Analyzer.AnalyzeStrength | CybPss.py:95-153 | the flags are the class and pattern tests on the password, and the score is length bonus + classes present - pattern penalty, within [-1, 6] |
| Analyzer.CharsetSize | CybPss.py:127-139 | the charset size adds 26/26/10/32 per class present, is 0 exactly when no class is present, and is at most 94 |
| Analyzer.RecommendationsExact | CybPss.py:141-151 | an "Add ..." entry for exactly the missing classes, the length advice exactly below 12 characters, the pattern advice exactly when a pattern occurs |
| Analyzer.ScoreMonotoneInClasses | CybPss.py:110-117 | with length and pattern flag fixed, more classes never lower the score, and strictly more classes strictly raise it |
| Analyzer.LongPatternFreeScore | CybPss.py:109-124 | from 12 characters on, with no common pattern, the score is 2 plus the number of classes |
| Analyzer.StrengthLevel | CybPss.py:156-165 | Weak exactly up to 2, Medium exactly for 3-4, Strong exactly for 5-6, Very Strong exactly above 6 |
| Analyzer.StrengthLevelMonotone | CybPss.py:156-165 | a higher score never gets a lower label |
| Analyzer.NeverVeryStrong | CybPss.py:109-165 | an analysed password is never Very Strong, and Strong needs at least three classes |
| Strength.StrengthScore | CybPss.py:762-773 | the older score is +1 for 8 or more characters plus +1 for each class the analyser finds present, so it is at most 5 |
| Strength.CalculateStrength | CybPss.py:775-780 | Weak exactly for scores up to 2, Medium exactly for 3 or 4, Strong exactly for 5; never Very Strong |
| Strength.StrengthTag | CybPss.py:775-781 | the returned text is the label in brackets ("[Weak]", "[Medium]", "[Strong]"), as both files return it (also password_generator.py:164-169) |
| Strength.StrongIffAllCriteria | password_generator.py:152-169 | Strong exactly when the password has 8 or more characters and all four classes |
| Strength.AgreesWithAnalyzerBelowTwelve | CybPss.py:762-773 | from 8 to 11 characters without a common pattern, the older score equals the analyser's score |
| Profile.ClampCount | CybPss.py:337-347 | a count below 1 becomes 1; a count above 1000 is kept exactly when the reply confirms it and becomes 100 otherwise; other counts are kept |
| Profile.ClampMonth | CybPss.py:366-368 | a month outside 1..12 becomes 1, and a month inside it is kept |
| Profile.ClampDay | CybPss.py:369-371 | a day outside 1..31 becomes 1, and a day inside it is kept |
| Profile.PetAnswer | CybPss.py:393-394 | the result never lower-cases to "none"; it is the answer itself or empty, and empty exactly when the answer was empty or "none" in any case |
| Profile.PetAnswerIdempotent | CybPss.py:393-394 | clearing the pet answer twice is the same as clearing it once |
| Profile.Validate | CybPss.py:326-395 | after validation the count is at least 1 and the month and day are in range, and every other answer (name, year, favourite number, the other texts) is exactly as given |
| Profile.ValidateIdempotent | CybPss.py:337-394 | validation is idempotent for a fixed reply, and leaves already-valid answers of at most 1000 alone |
| Profile.KeepNotBlank | CybPss.py:516 | an answer survives exactly when it has a non-whitespace character, every copy of a repeated answer survives, and the survivors keep their order |
| Profile.InfoList | CybPss.py:498-516 | the list holds exactly the non-blank text answers of the profile, each as often as it was given, in the order they are asked, at most fourteen |
| Variations.NumbersOfShape | CybPss.py:409-412 | the formatted numbers contain no space, and a valid month or day becomes exactly two digits of the same value |
| Variations.Finish | CybPss.py:417-419 | padding then `[:length]` gives exactly `length` characters when `length >= 0`, a prefix of stem + padding, each character from one or the other; a negative length draws no padding and drops `-length` characters from the end, as Python's slice does |
| Variations.FirstFive | CybPss.py:414-444 | variations 1 to 5 are five strings of exactly `length` characters |
| Variations.LastThree | CybPss.py:446-462 | variations 6 to 8 are three strings of exactly `length` characters |
| Variations.Generate | CybPss.py:401-464 | the generator returns exactly eight strings, each of exactly `length` characters when `length >= 0` |
| Variations.GenerateSpaceFree | CybPss.py:401-464 | no variation contains a space: the base is cleaned, the numbers have none, and no draw alphabet has one |
| Variations.FirstVariationShape | CybPss.py:414-419 | variation 1 starts with as much of the cleaned base as fits, then its four random digits, and every later position holds a letter or digit |
| Variations.SpecialsThenFavorite | CybPss.py:421-426 | when it fits, variation 2 is the base, then two of "!@#$%^&*", then the favourite number |
| Variations.YearAtThree | CybPss.py:428-432 | when it fits, variation 3 holds the birth year right after the first three characters of the base |
| Variations.BirthdayAfterBase | CybPss.py:446-450 | when it fits, variation 6 holds the zero-filled month and then the day right after the base |
| Variations.YearSuffixAfterBase | CybPss.py:452-456 | when it fits, variation 7 holds the last two characters of the birth year right after the base |
| Variations.MonthDayPattern | CybPss.py:458-462 | when it fits, variation 8 is two base characters, the month, the next two base characters, the day, then the rest of the base |
| Variations.AlternatingCase | password_generator.py:94-97 | in variation 4, position i of the base is upper-cased for even i and lower-cased for odd i, up to `min(|base|, length)` |
| Variations.FavoriteInMiddle | password_generator.py:99-104 | variation 5 is a prefix of base[:mid] + favourite number + base[mid:] + padding, with mid = len(base) div 2 |
| RandomPassword.GenerateRandomEnhanced | CybPss.py:466-490 | the password has `max(4, length)` characters, at least one of each class, and only characters from the four classes |
| RandomPassword.RandomEnhancedPermutesDraws | CybPss.py:474-490 | the password is a rearrangement of exactly the four guaranteed characters and the filler draws |
| Pool.VariationsOfAll | CybPss.py:523-527 | eight variations per answer, each of the requested length and space-free |
| Pool.CombinedBases | CybPss.py:532-536 | the kept joined texts are non-empty and at most one per group of three answers |
| Pool.CombinedBasesGroups | CybPss.py:531-536 | for non-blank answers no group is dropped: exactly ceil(n/3) texts, the i-th being the clean join of `info_list[3*i:3*i+3]` |
| Pool.NonEmpty | CybPss.py:548-549 | exactly the non-empty combinations are kept, each as often as it occurs, in their order |
| Pool.BirthdayCombos | CybPss.py:541-546 | there are four combinations, and none is empty |
| Pool.KeepsBirthdayCombos | CybPss.py:541-549 | the `if combo` filter never drops a birthday combination |
| Pool.JoinSampleChars | CybPss.py:595 | the joined sample consists of exactly the characters of the sampled answers, and is as long as they are together |
| Pool.NaturalPoolSize | CybPss.py:523-551 | the natural pool is the earlier pool followed by eight variations per answer, per group of three answers and per birthday combination |
| Pool.StepOutput | CybPss.py:581-597 | every candidate of a top-up step has 10 to 20 characters and no space |
| Pool.Batch | CybPss.py:576-599 | every candidate of a batch has 10 to 20 characters and no space |
| Pool.BatchPrefix | CybPss.py:577-579 | the steps run before the inner loop breaks are a fitting prefix whose candidates all belong to the full batch |
| Pool.RoundBatch | CybPss.py:571-599 | the steps a round runs add only batch candidates of 10 to 20 characters and no space |
| Pool.AfterRound | CybPss.py:601-606 | after one round the pool is duplicate-free and holds exactly the old pool plus the round's candidates |
| Pool.AfterRoundGrows | CybPss.py:601-606 | a round that produces a candidate not yet in the pool strictly grows the pool |
| Pool.TopUp | CybPss.py:571-615 | topping up keeps the pool duplicate-free, keeps every earlier candidate, adds only round candidates, and leaves rounds unused only once the pool has reached the requested count |
| Pool.TopUpCompletes | CybPss.py:574-615 | given one round per missing password, each bringing a candidate new to the pool, the loop reaches the requested count |
| Pool.Shuffled | CybPss.py:555-559 | de-duplicating and shuffling keeps each candidate exactly once and adds nothing |
| Pool.ShuffledPool | CybPss.py:555-559 | the shuffled pool holds each natural candidate once and nothing else |
| Pool.Clamp | CybPss.py:561-618 | the result is duplicate-free and at most the requested count; it is exactly the count, cut from the front, for a long enough pool, and exactly the count when the top-up stopped with rounds to spare |
| Pool.ClampExactWhenTopUpReaches | CybPss.py:566-618 | a top-up that reaches the requested count, even on its last supplied round, leaves exactly that count after the final cut |
| Pool.ClampReachesCount | CybPss.py:566-618 | a short pool is clamped to exactly the requested count when the supplied rounds cover every missing password and each brings a new candidate |
| Pool.Complete | CybPss.py:555-618 | after de-duplication, shuffle and clamp: no duplicates, at most the requested count, exactly the count when the distinct candidates suffice or rounds are left, and only natural or round candidates |
| Pool.CompleteReachesCount | CybPss.py:566-618 | a short pool ends with exactly the requested count when the supplied rounds cover every missing password and each brings a new candidate |
| Pool.GeneratePasswords | CybPss.py:492-618 | no duplicates, at most `password_count` entries, exactly that many when the de-duplicated natural pool suffices or the top-up stopped with rounds to spare, and only generated or earlier candidates |
| Pool.GeneratedShape | CybPss.py:523-599 | every password a generation adds has 10 to 20 characters and no space |
| Legacy.NumbersOf | password_generator.py:82-88 | the formatted year and favourite number have no space and parse back to the answers |
| Legacy.GenerateVariations | password_generator.py:66-106 | the older generator returns exactly five strings, each of exactly `length` characters and space-free |
| Legacy.PerInfo | password_generator.py:122-124 | five variations of 12 characters for each of the five answers |
| Legacy.NaturalPool | password_generator.py:113-129 | thirty new candidates, each of 12 or 16 characters and space-free |
| Legacy.GeneratePasswords | password_generator.py:108-135 | no duplicates, exactly the members of the natural pool, at most thirty beyond the earlier pool |
| Legacy.GeneratePasswordsPermutes | password_generator.py:131-135 | the result is a permutation of the de-duplicated natural pool |

## Left out

- Terminal presentation: colours, progress bars, screen clearing, headers,
  menus, and the welcome and info screens. None of it affects the passwords.
- The prompt loops of `get_user_input` and `ask_questions`. Answers are
  parameters. The reply to the large-count prompt is a parameter of
  `Profile.ClampCount` and `Profile.Validate`.
- File export (`save_to_file`, `save_txt_file`, the JSON and CSV writers,
  timestamps) and `encrypt_data`/`decrypt_data`. These are I/O and calls into
  `base64` and `hashlib`, which are not part of this model.
- The entropy value `length * charset_size ** 0.5`, and the averages and
  percentages in the statistics screens. These are floating point. The
  integer charset size is modelled.
- Whether `shuffle`, `choices`, `choice`, `randint` and `sample` are uniform.
  Any outcome they can produce is allowed.
- `time.sleep` and the progress messages inside the top-up loop.
- Pool.TopUp: termination of the top-up `while` loop is not modelled, because
  its progress is only probabilistic. The loop runs over the rounds of draws
  supplied and stops when they run out. A loop that stops with rounds left
  has reached the requested count; `Pool.TopUpCompletes` states when the
  supplied rounds are enough.
- Pool.GeneratePasswords: the exact count is promised when the natural pool
  suffices or the top-up stopped with rounds to spare, not when the supplied
  rounds ran out first, for the reason given for `Pool.TopUp`. The case where
  the last supplied round completes the pool is proved one step down, for
  `Pool.Complete` (`Pool.CompleteReachesCount`), which `GeneratePasswords`
  applies to the natural pool; restated for the whole profile, the proof
  exceeds the solver's resource limit.
- Pool.Clamp: its own contract gives the exact count after a top-up only
  when rounds are left; the last-round case is the separate lemma
  `Pool.ClampExactWhenTopUpReaches`.
- Pool.Round: each round supplies at least 100 steps, and the model runs the
  first `min(batch_size, requested - len(pool))` of them, as the inner loop
  does.
- Pool.StepFits: an `info_based` step on an empty answer list makes
  `random.choice` raise `IndexError`. That path is excluded rather than
  modelled. `ask_questions` requires non-empty answers for every field except
  the pet name, so the list is never empty in practice.
- The `.get('password_count', 25)` default. `ask_questions` always sets the
  count before generation.
- Unicode: `isupper`, `islower`, `isdigit`, `lower()`, `upper()` and
  `isspace` are restricted to ASCII. A non-ASCII character belongs to no class
  and is left unchanged by `lower()` and `upper()`.
- `test_cybpss.py`: a printing driver without assertions, not part of this
  model.

=== FILE: analyzer.dfy ===
/**
 `PasswordAnalyzer.analyze_strength` and `get_strength_level`: the integer
 score, the character-class flags, the common-pattern flag, the charset size
 behind the entropy estimate, and the list of recommendations.

 The entropy value itself (`length * charset_size ** 0.5`) is floating point
 and is not modelled; its integer charset size is.
 */
module Analyzer {
  import opened Chars
  import opened PyStr

  const CommonPatterns: seq<string> := ["123", "abc", "qwe", "password", "admin"]

  /** The recommendations `analyze_strength` can make. */
  datatype Advice = AvoidCommonPatterns | AddUppercase | AddLowercase | AddNumbers | AddSpecial | UseTwelve
  {
    function Message(): string {
      match this
      case AvoidCommonPatterns => "Avoid common patterns"
      case AddUppercase => "Add uppercase letters"
      case AddLowercase => "Add lowercase letters"
      case AddNumbers => "Add numbers"
      case AddSpecial => "Add special characters"
      case UseTwelve => "Use at least 12 characters"
    }
  }

  /** Some common pattern occurs in the lower-cased password. */
  predicate HasCommonPattern(password: string) {
    exists k :: 0 <= k < |CommonPatterns| && Contains(Lower(password), CommonPatterns[k])
  }

  datatype Report = Report(
    score: int,
    length: nat,
    hasUpper: bool,
    hasLower: bool,
    hasDigit: bool,
    hasSpecial: bool,
    hasCommonPatterns: bool,
    charsetSize: nat,
    recommendations: seq<Advice>)
  {
    /** How many of the four character classes are present. */
    function Classes(): nat {
      (if hasUpper then 1 else 0) + (if hasLower then 1 else 0)
      + (if hasDigit then 1 else 0) + (if hasSpecial then 1 else 0)
    }
  }

  /** The length part of the score: +2 from 12 characters, +1 from 8. */
  function LengthBonus(n: nat): (r: nat)
    ensures r <= 2
    ensures r == 2 <==> n >= 12
    ensures r == 0 <==> n < 8
  {
    if n >= 12 then 2 else if n >= 8 then 1 else 0
  }

  function Recommend(missing: bool, a: Advice): (r: seq<Advice>)
    ensures forall x :: x in r <==> missing && x == a
    ensures |r| == if missing then 1 else 0
  {
    if missing then [a] else []
  }

  /** The recommendation list in the order the source appends to it: the
      pattern warning first, then one entry per missing class, then length. */
  function Recommendations(pattern: bool, upper: bool, lower: bool, digit: bool, special: bool, short: bool)
    : (r: seq<Advice>)
    ensures AvoidCommonPatterns in r <==> pattern
    ensures AddUppercase in r <==> !upper
    ensures AddLowercase in r <==> !lower
    ensures AddNumbers in r <==> !digit
    ensures AddSpecial in r <==> !special
    ensures UseTwelve in r <==> short
    ensures |r| == (if pattern then 1 else 0) + (if upper then 0 else 1) + (if lower then 0 else 1)
                   + (if digit then 0 else 1) + (if special then 0 else 1) + (if short then 1 else 0)
    ensures pattern ==> r[0] == AvoidCommonPatterns
    ensures short ==> r[|r| - 1] == UseTwelve
  {
    var tail := Recommend(!special, AddSpecial) + Recommend(short, UseTwelve);
    var classes := Recommend(!upper, AddUppercase) + Recommend(!lower, AddLowercase)
                   + Recommend(!digit, AddNumbers);
    Recommend(pattern, AvoidCommonPatterns) + (classes + tail)
  }

  function AnalyzeStrength(password: string): (r: Report)
    ensures r.length == |password|
    ensures r.hasUpper == HasUpper(password) && r.hasLower == HasLower(password)
    ensures r.hasDigit == HasDigit(password) && r.hasSpecial == HasSpecial(password)
    ensures r.hasCommonPatterns == HasCommonPattern(password)
    // the score decomposes into its three parts and stays within [-1, 6]
    ensures r.score == LengthBonus(|password|) + r.Classes() - (if r.hasCommonPatterns then 1 else 0)
    ensures -1 <= r.score <= 6
  {
    var hasUpper := HasUpper(password);
    var hasLower := HasLower(password);
    var hasDigit := HasDigit(password);
    var hasSpecial := HasSpecial(password);
    var classes := (if hasUpper then 1 else 0) + (if hasLower then 1 else 0)
                   + (if hasDigit then 1 else 0) + (if hasSpecial then 1 else 0);
    var pattern := HasCommonPattern(password);
    var score := LengthBonus(|password|) + classes - (if pattern then 1 else 0);
    var charset := (if hasLower then 26 else 0) + (if hasUpper then 26 else 0)
                   + (if hasDigit then 10 else 0) + (if hasSpecial then 32 else 0);
    var recommendations :=
      Recommendations(pattern, hasUpper, hasLower, hasDigit, hasSpecial, |password| < 12);
    Report(score, |password|, hasUpper, hasLower, hasDigit, hasSpecial, pattern, charset, recommendations)
  }

  /** The charset size behind the entropy estimate counts 26/26/10/32 for each
      class present, and is zero exactly when no class is present. */
  lemma CharsetSize(p: string)
    ensures var r := AnalyzeStrength(p);
      && r.charsetSize == (if r.hasLower then 26 else 0) + (if r.hasUpper then 26 else 0)
                          + (if r.hasDigit then 10 else 0) + (if r.hasSpecial then 32 else 0)
      && (r.charsetSize == 0 <==> r.Classes() == 0)
      && r.charsetSize <= 94
  {
  }

  /** The recommendations name every weakness and nothing else: one "Add ..."
      entry per missing class, the length advice exactly below 12 characters,
      the pattern advice exactly when a common pattern occurs. */
  lemma RecommendationsExact(p: string)
    ensures var r := AnalyzeStrength(p);
      && (AvoidCommonPatterns in r.recommendations <==> r.hasCommonPatterns)
      && (AddUppercase in r.recommendations <==> !r.hasUpper)
      && (AddLowercase in r.recommendations <==> !r.hasLower)
      && (AddNumbers in r.recommendations <==> !r.hasDigit)
      && (AddSpecial in r.recommendations <==> !r.hasSpecial)
      && (UseTwelve in r.recommendations <==> |p| < 12)
      && |r.recommendations| == (4 - r.Classes()) + (if |p| < 12 then 1 else 0)
                                + (if r.hasCommonPatterns then 1 else 0)
  {
  }

  /** Adding a missing character class never lowers the score when the length
      and the common-pattern flag stay the same. */
  lemma ScoreMonotoneInClasses(p: string, q: string)
    requires |p| == |q|
    requires HasCommonPattern(p) == HasCommonPattern(q)
    requires HasUpper(p) ==> HasUpper(q)
    requires HasLower(p) ==> HasLower(q)
    requires HasDigit(p) ==> HasDigit(q)
    requires HasSpecial(p) ==> HasSpecial(q)
    ensures AnalyzeStrength(p).score <= AnalyzeStrength(q).score
    ensures AnalyzeStrength(p).Classes() < AnalyzeStrength(q).Classes()
            ==> AnalyzeStrength(p).score < AnalyzeStrength(q).score
  {
  }

  /** From 12 characters on, with no common pattern, the score is 2 plus the
      number of classes present. */
  lemma LongPatternFreeScore(p: string)
    requires |p| >= 12 && !HasCommonPattern(p)
    ensures AnalyzeStrength(p).score == 2 + AnalyzeStrength(p).Classes()
    ensures 2 <= AnalyzeStrength(p).score
  {
  }

  datatype Level = Weak | Medium | Strong | VeryStrong
  {
    /** Position in the order Weak < Medium < Strong < Very Strong. */
    function Rank(): nat {
      match this
      case Weak => 0
      case Medium => 1
      case Strong => 2
      case VeryStrong => 3
    }

    function Label(): string {
      match this
      case Weak => "Weak"
      case Medium => "Medium"
      case Strong => "Strong"
      case VeryStrong => "Very Strong"
    }
  }

  /** `get_strength_level`: the label for a score (the terminal colour is not modelled). */
  function StrengthLevel(score: int): (l: Level)
    ensures l == Weak <==> score <= 2
    ensures l == Medium <==> 2 < score <= 4
    ensures l == Strong <==> 4 < score <= 6
    ensures l == VeryStrong <==> 6 < score
  {
    if score <= 2 then Weak
    else if score <= 4 then Medium
    else if score <= 6 then Strong
    else VeryStrong
  }

  /** A higher score never gets a lower label. */
  lemma StrengthLevelMonotone(a: int, b: int)
    requires a <= b
    ensures StrengthLevel(a).Rank() <= StrengthLevel(b).Rank()
  {
  }

  /** Since an analysed score is at most 6, no analysed password is ever
      labelled Very Strong, and the label depends on more than length alone. */
  lemma NeverVeryStrong(p: string)
    ensures StrengthLevel(AnalyzeStrength(p).score) != VeryStrong
    ensures StrengthLevel(AnalyzeStrength(p).score) == Strong
            ==> AnalyzeStrength(p).Classes() >= 3
  {
  }
}

/**
 `calculate_strength`, the older 0..5 scorer. The two source files carry the
 same definition character for character; it is modelled once.
 */
module Strength {
  import opened Chars
  import opened Analyzer

  /** +1 for 8 or more characters, +1 for each character class present. */
  function StrengthScore(password: string): (r: nat)
    ensures r <= 5
    ensures r == (if |password| >= 8 then 1 else 0) + AnalyzeStrength(password).Classes()
  {
    (if |password| >= 8 then 1 else 0)
    + (if HasUpper(password) then 1 else 0) + (if HasLower(password) then 1 else 0)
    + (if HasDigit(password) then 1 else 0) + (if HasSpecial(password) then 1 else 0)
  }

  /** The label `calculate_strength` returns, without its brackets. */
  function CalculateStrength(password: string): (l: Level)
    ensures l != VeryStrong
    ensures l == Weak <==> StrengthScore(password) <= 2
    ensures l == Medium <==> StrengthScore(password) in {3, 4}
    ensures l == Strong <==> StrengthScore(password) == 5
  {
    var score := StrengthScore(password);
    if score <= 2 then Weak else if score <= 4 then Medium else Strong
  }

  /** The text `calculate_strength` returns: "[Weak]", "[Medium]" or "[Strong]". */
  function StrengthTag(password: string): (t: string)
    ensures t == "[" + CalculateStrength(password).Label() + "]"
  {
    Bracketed(CalculateStrength(password))
  }

  function Bracketed(l: Level): (t: string)
    requires l != VeryStrong
    ensures t == "[" + l.Label() + "]"
  {
    match l
    case Weak => "[Weak]"
    case Medium => "[Medium]"
    case Strong => "[Strong]"
  }

  /** Strong means every criterion is met: 8 or more characters and all four classes. */
  lemma StrongIffAllCriteria(password: string)
    ensures CalculateStrength(password) == Strong
            <==> |password| >= 8 && HasUpper(password) && HasLower(password)
                 && HasDigit(password) && HasSpecial(password)
  {
  }

  /** Below 12 characters and free of common patterns, the older scorer and
      `analyze_strength` agree exactly. */
  lemma AgreesWithAnalyzerBelowTwelve(password: string)
    requires 8 <= |password| < 12 && !HasCommonPattern(password)
    ensures StrengthScore(password) == AnalyzeStrength(password).score
  {
  }
}

=== FILE: chars.dfy ===
/**
 ASCII character classes and the string clean-up that the password pipeline
 applies to every piece of personal information.

 Python's `str.isupper`, `str.islower` and `str.isdigit` are Unicode-aware; this
 model restricts them to ASCII, so a non-ASCII character belongs to no class and
 is left unchanged by `lower()` / `upper()`.
 */
module Chars {

  predicate IsUpper(c: char) { 'A' <= c <= 'Z' }
  predicate IsLower(c: char) { 'a' <= c <= 'z' }
  predicate IsDigit(c: char) { '0' <= c <= '9' }

  /** The literal special-character set both strength scorers test against. */
  const Specials: string := "!@#$%^&*()_+-=[]{}|;:,.<>?"

  /** Membership in `Specials`, written as the seven code-point runs the set
      consists of: ! #-& (-. :-@ [ ]-_ {-} */
  predicate IsSpecial(c: char) {
    || c == '!' || '#' <= c <= '&' || '(' <= c <= '.' || ':' <= c <= '@'
    || c == '[' || ']' <= c <= '_' || '{' <= c <= '}'
  }

  lemma SpecialText(c: char)
    ensures IsSpecial(c) <==> c in Specials
  {
  }

  const AsciiLowercase: string := "abcdefghijklmnopqrstuvwxyz"
  const AsciiUppercase: string := "ABCDEFGHIJKLMNOPQRSTUVWXYZ"
  const DigitChars: string := "0123456789"
  const AsciiLetters: string := AsciiLowercase + AsciiUppercase

  /** The alphabets the generator draws random characters from. `Allows` is
      membership in the alphabet's literal `Text`. */
  datatype Alphabet =
    | Digits               // string.digits
    | Letters              // string.ascii_letters
    | LettersDigits        // string.ascii_letters + string.digits
    | FewSpecials          // "!@#$%^&*"
    | DigitsOr3            // string.digits + "!@#"
    | DigitsOr5            // string.digits + "!@#$%"
    | LettersDigitsOr3     // string.ascii_letters + string.digits + "!@#"
    | Lowercase            // string.ascii_lowercase
    | Uppercase            // string.ascii_uppercase
    | SpecialSet           // "!@#$%^&*()_+-=[]{}|;:,.<>?"
    | Everything           // lowercase + uppercase + digits + the special set
  {
    predicate Allows(c: char) {
      match this
      case Digits => IsDigit(c)
      case Letters => IsLower(c) || IsUpper(c)
      case LettersDigits => IsLower(c) || IsUpper(c) || IsDigit(c)
      case FewSpecials => c in "!@#$%^&*"
      case DigitsOr3 => IsDigit(c) || c in "!@#"
      case DigitsOr5 => IsDigit(c) || c in "!@#$%"
      case LettersDigitsOr3 => IsLower(c) || IsUpper(c) || IsDigit(c) || c in "!@#"
      case Lowercase => IsLower(c)
      case Uppercase => IsUpper(c)
      case SpecialSet => IsSpecial(c)
      case Everything => IsLower(c) || IsUpper(c) || IsDigit(c) || IsSpecial(c)
    }

    function Text(): string {
      match this
      case Digits => DigitChars
      case Letters => AsciiLetters
      case LettersDigits => AsciiLetters + DigitChars
      case FewSpecials => "!@#$%^&*"
      case DigitsOr3 => DigitChars + "!@#"
      case DigitsOr5 => DigitChars + "!@#$%"
      case LettersDigitsOr3 => AsciiLetters + DigitChars + "!@#"
      case Lowercase => AsciiLowercase
      case Uppercase => AsciiUppercase
      case SpecialSet => Specials
      case Everything => AsciiLowercase + AsciiUppercase + DigitChars + Specials
    }
  }

  lemma LowercaseText(c: char)
    ensures IsLower(c) <==> c in AsciiLowercase
  {
    if IsLower(c) {
      assert AsciiLowercase[c as int - 'a' as int] == c;
    }
  }

  lemma UppercaseText(c: char)
    ensures IsUpper(c) <==> c in AsciiUppercase
  {
    if IsUpper(c) {
      assert AsciiUppercase[c as int - 'A' as int] == c;
    }
  }

  lemma DigitText(c: char)
    ensures IsDigit(c) <==> c in DigitChars
  {
    if IsDigit(c) {
      assert DigitChars[c as int - '0' as int] == c;
    }
  }

  /** Each alphabet allows exactly the characters of its literal text. */
  lemma AllowsText(a: Alphabet, c: char)
    ensures a.Allows(c) <==> c in a.Text()
  {
    LowercaseText(c);
    UppercaseText(c);
    DigitText(c);
    SpecialText(c);
  }

  /** No draw alphabet contains a space. */
  lemma NoAlphabetAllowsSpace(a: Alphabet)
    ensures !a.Allows(' ')
  {
  }

  /** Python's `str.isspace` restricted to ASCII: space, \t \n \v \f \r and the
      four separators 0x1C..0x1F. */
  predicate IsWhitespace(c: char) {
    c == ' ' || 9 <= c as int <= 13 || 28 <= c as int <= 31
  }

  predicate HasUpper(s: string) { exists i :: 0 <= i < |s| && IsUpper(s[i]) }
  predicate HasLower(s: string) { exists i :: 0 <= i < |s| && IsLower(s[i]) }
  predicate HasDigit(s: string) { exists i :: 0 <= i < |s| && IsDigit(s[i]) }
  predicate HasSpecial(s: string) { exists i :: 0 <= i < |s| && IsSpecial(s[i]) }

  /** `s.strip()` is non-empty: some character is not whitespace. */
  predicate NotBlank(s: string) { exists i :: 0 <= i < |s| && !IsWhitespace(s[i]) }

  function ToLower(c: char): (r: char)
    ensures !IsUpper(r)
    ensures IsUpper(c) ==> IsLower(r) && r as int == c as int + 32
    ensures !IsUpper(c) ==> r == c
  {
    if IsUpper(c) then (c as int + 32) as char else c
  }

  function ToUpper(c: char): (r: char)
    ensures !IsLower(r)
    ensures IsLower(c) ==> IsUpper(r) && r as int == c as int - 32
    ensures !IsLower(c) ==> r == c
  {
    if IsLower(c) then (c as int - 32) as char else c
  }

  /** `s.lower()` */
  function Lower(s: string): (r: string)
    ensures |r| == |s|
    ensures forall i :: 0 <= i < |s| ==> r[i] == ToLower(s[i])
  {
    seq(|s|, i requires 0 <= i < |s| => ToLower(s[i]))
  }

  /** Number of occurrences of `c` in `s`. */
  function Count(s: string, c: char): nat
  {
    if |s| == 0 then 0 else (if s[0] == c then 1 else 0) + Count(s[1..], c)
  }

  /** `s.replace(" ", "")` */
  function RemoveSpaces(s: string): (r: string)
    ensures ' ' !in r
    ensures forall c :: c != ' ' ==> (c in r <==> c in s)
    ensures |r| + Count(s, ' ') == |s|
  {
    if |s| == 0 then []
    else (if s[0] == ' ' then [] else [s[0]]) + RemoveSpaces(s[1..])
  }

  /** `s.replace(" ", "").lower()`: the normalisation applied to a base text
      before any variation is built. */
  function CleanInfo(s: string): (r: string)
    ensures ' ' !in r
    ensures !HasUpper(r)
    ensures |r| + Count(s, ' ') == |s|
  {
    Lower(RemoveSpaces(s))
  }

  /** Text without spaces or upper-case letters is already clean. */
  lemma CleanText(s: string)
    requires ' ' !in s && !HasUpper(s)
    ensures CleanInfo(s) == s
  {
    NoSpaceUnchanged(s);
    assert RemoveSpaces(s) == s;
    assert forall i :: 0 <= i < |s| ==> ToLower(s[i]) == s[i];
    assert Lower(s) == s;
  }

  /** Cleaning is idempotent, so re-cleaning already-cleaned text changes nothing. */
  lemma CleanInfoIdempotent(s: string)
    ensures CleanInfo(CleanInfo(s)) == CleanInfo(s)
  {
    CleanText(CleanInfo(s));
  }

  /** An answer with a character other than whitespace keeps that character
      through the clean-up, so its cleaned text is not empty. */
  lemma NotBlankCleanNonEmpty(s: string)
    requires NotBlank(s)
    ensures CleanInfo(s) != ""
  {
    var i :| 0 <= i < |s| && !IsWhitespace(s[i]);
    CountBelow(s, ' ', i);
  }

  lemma {:induction false} CountBelow(s: string, c: char, i: nat)
    requires i < |s| && s[i] != c
    ensures Count(s, c) < |s|
  {
    if i > 0 {
      CountBelow(s[1..], c, i - 1);
    } else {
      CountAtMost(s[1..], c);
    }
  }

  lemma {:induction false} CountAtMost(s: string, c: char)
    ensures Count(s, c) <= |s|
  {
    if |s| > 0 {
      CountAtMost(s[1..], c);
    }
  }

  /** The clean-up works character by character: cleaning a concatenation
      cleans each part, */
  lemma CleanInfoAppend(a: string, b: string)
    ensures CleanInfo(a + b) == CleanInfo(a) + CleanInfo(b)
  {
    RemoveSpacesAppend(a, b);
    var x, y := RemoveSpaces(a), RemoveSpaces(b);
    assert Lower(x + y) == Lower(x) + Lower(y);
  }

  /** and a single character is dropped when it is a space and lower-cased
      otherwise. Together: the cleaned text is the input's non-space
      characters, in order, lower-cased. */
  lemma CleanInfoChar(c: char)
    ensures CleanInfo([c]) == if c == ' ' then "" else [ToLower(c)]
  {
    assert [c][1..] == [];
  }

  lemma {:induction false} RemoveSpacesAppend(a: string, b: string)
    ensures RemoveSpaces(a + b) == RemoveSpaces(a) + RemoveSpaces(b)
    decreases |a|
  {
    if |a| > 0 {
      assert (a + b)[0] == a[0];
      assert (a + b)[1..] == a[1..] + b;
      RemoveSpacesAppend(a[1..], b);
    } else {
      assert a + b == b;
    }
  }

  /** `''.join(group)` */
  function Concat(group: seq<string>): string {
    if |group| == 0 then "" else group[0] + Concat(group[1..])
  }

  /** Cleaning each answer and joining is the same as joining the raw answers
      and cleaning once. */
  lemma {:induction false} JoinCleanedIsCleanConcat(group: seq<string>)
    ensures JoinCleaned(group) == CleanInfo(Concat(group))
    decreases |group|
  {
    if |group| > 0 {
      JoinCleanedIsCleanConcat(group[1..]);
      CleanInfoAppend(group[0], Concat(group[1..]));
    }
  }

  /** `''.join(x.replace(" ", "").lower() for x in group)`: the joined text is
      itself clean, so the variation generator's own cleaning leaves it as is. */
  function JoinCleaned(group: seq<string>): (r: string)
    ensures ' ' !in r && !HasUpper(r)
    ensures CleanInfo(r) == r
  {
    if |group| == 0 then ""
    else
      var head := CleanInfo(group[0]);
      var rest := JoinCleaned(group[1..]);
      assert forall i :: 0 <= i < |head + rest| ==>
        (head + rest)[i] == if i < |head| then head[i] else rest[i - |head|];
      CleanText(head + rest);
      head + rest
  }

  lemma {:induction false} NoSpaceUnchanged(s: string)
    requires ' ' !in s
    ensures RemoveSpaces(s) == s
  {
    if |s| > 0 {
      assert s[0] != ' ';
      NoSpaceUnchanged(s[1..]);
      assert s == [s[0]] + s[1..];
    }
  }
}

=== FILE: generate.dfy ===
/**
 The current generator's `generate_passwords`: build the natural pool from the
 personal information, de-duplicate and shuffle it, then clamp it to the
 requested count, topping it up in rounds when it is short.

 `self.passwords` is never reset between two generations, so the pool starts
 from whatever the previous generation left: the `previous` parameter.

 The top-up `while` loop only makes progress with some probability; here it
 runs on the rounds of draws supplied and stops when they run out, which is
 the fuel bound of the model.
 */
module Pool {
  import opened Chars
  import opened PyStr
  import opened Shuffle
  import opened Profile
  import V = Variations
  import RandomPassword

  function NumbersOf(u: UserInfo): V.Numbers {
    V.NumbersOf(u.birthYear, u.birthMonth, u.birthDay, u.favoriteNumber)
  }

  /** The variation generator applied to each base in turn, one set of draws per call. */
  function VariationsOfAll(n: V.Numbers, bases: seq<string>, length: int, draws: seq<V.Draws>): (r: seq<string>)
    requires DrawsFit(n, bases, length, draws)
    ensures |r| == 8 * |bases|
    ensures length >= 0 ==> forall x :: x in r ==> |x| == length
    ensures V.SpaceFree(n) ==> forall x :: x in r ==> ' ' !in x
  {
    if |bases| == 0 then []
    else
      var first := V.Generate(n, bases[0], length, draws[0]);
      V.GenerateSpaceFree(n, bases[0], length, draws[0]);
      first + VariationsOfAll(n, bases[1..], length, draws[1..])
  }

  /** The non-empty joins of `info_list[i:i+3]` for i = 0, 3, 6, ... */
  function CombinedBases(infos: seq<string>): (r: seq<string>)
    ensures |r| <= (|infos| + 2) / 3
    ensures forall i :: 0 <= i < |r| ==> r[i] != ""
    decreases |infos|
  {
    if |infos| == 0 then []
    else
      var joined := JoinCleaned(Take(infos, 3));
      (if joined != "" then [joined] else []) + CombinedBases(Drop(infos, 3))
  }

  /** When every answer is non-blank, as `InfoList` guarantees, no group is
      dropped: there is one joined text per group of three answers, and the
      `i`-th is the clean join of `info_list[3*i:3*i+3]`. */
  lemma {:induction false} CombinedBasesGroups(infos: seq<string>)
    requires forall x :: x in infos ==> NotBlank(x)
    ensures |CombinedBases(infos)| == (|infos| + 2) / 3
    ensures forall i :: 0 <= i < |CombinedBases(infos)| ==>
      CombinedBases(infos)[i] == JoinCleaned(Slice(infos, 3 * i, 3 * i + 3))
    decreases |infos|
  {
    if |infos| > 0 {
      var rest := Drop(infos, 3);
      FirstGroupKept(infos);
      CombinedBasesGroups(rest);
      var r := CombinedBases(infos);
      assert Slice(infos, 0, 3) == Take(infos, 3);
      forall i | 1 <= i < |r|
        ensures r[i] == JoinCleaned(Slice(infos, 3 * i, 3 * i + 3))
      {
        LaterGroup(infos, i);
      }
    }
  }

  /** A first group that starts with a non-blank answer joins to a non-empty
      text and is kept; the remaining answers are all non-blank too. */
  lemma FirstGroupKept(infos: seq<string>)
    requires |infos| > 0 && forall x :: x in infos ==> NotBlank(x)
    ensures CombinedBases(infos) == [JoinCleaned(Take(infos, 3))] + CombinedBases(Drop(infos, 3))
    ensures |Drop(infos, 3)| == Max(0, |infos| - 3)
    ensures forall x :: x in Drop(infos, 3) ==> NotBlank(x)
  {
    var group := Take(infos, 3);
    var rest := Drop(infos, 3);
    assert group[0] == infos[0];
    NotBlankCleanNonEmpty(infos[0]);
    assert forall x :: x in rest ==> x in infos by {
      assert group + rest == infos;
    }
  }

  /** The `i`-th kept text, for `i >= 1`, is the `(i-1)`-th of the answers
      after the first group. */
  lemma LaterGroup(infos: seq<string>, i: nat)
    requires |infos| > 0 && 1 <= i
    requires CombinedBases(infos) == [JoinCleaned(Take(infos, 3))] + CombinedBases(Drop(infos, 3))
    requires i < |CombinedBases(infos)|
    requires CombinedBases(Drop(infos, 3))[i - 1]
             == JoinCleaned(Slice(Drop(infos, 3), 3 * (i - 1), 3 * (i - 1) + 3))
    ensures CombinedBases(infos)[i] == JoinCleaned(Slice(infos, 3 * i, 3 * i + 3))
  {
    SliceOfDrop(infos, i);
  }

  lemma SliceOfDrop(s: seq<string>, i: nat)
    requires i >= 1
    ensures Slice(Drop(s, 3), 3 * (i - 1), 3 * (i - 1) + 3) == Slice(s, 3 * i, 3 * i + 3)
  {
  }

  /** The four name/birthday combinations, formatted with plain `str()`: each
      ends in a formatted number, so none is empty. */
  function BirthdayCombos(u: UserInfo): (r: seq<string>)
    ensures |r| == 4
    ensures forall i :: 0 <= i < 4 ==> r[i] != ""
  {
    [ u.name + IntToStr(u.birthYear),
      u.favoriteColor + IntToStr(u.birthMonth) + IntToStr(u.birthDay),
      u.hobby + IntToStr(u.birthYear) + IntToStr(u.favoriteNumber),
      u.city + IntToStr(u.birthDay) + IntToStr(u.birthMonth) ]
  }

  /** `[x for x in xs if x]` */
  function NonEmpty(xs: seq<string>): (r: seq<string>)
    ensures |r| <= |xs|
    ensures forall x :: x in r <==> x in xs && x != ""
    ensures forall x :: multiset(r)[x] == if x != "" then multiset(xs)[x] else 0
    ensures SubSeq(r, xs)
  {
    if |xs| == 0 then []
    else
      var rest := NonEmpty(xs[1..]);
      assert xs == [xs[0]] + xs[1..];
      if xs[0] != "" then
        assert ([xs[0]] + rest)[1..] == rest;
        [xs[0]] + rest
      else
        rest
  }

  /** No birthday combination is dropped by the filter. */
  lemma {:induction false} KeepsBirthdayCombos(u: UserInfo)
    ensures NonEmpty(BirthdayCombos(u)) == BirthdayCombos(u)
  {
    var xs := BirthdayCombos(u);
    AllNonEmptyKept(xs);
  }

  lemma {:induction false} AllNonEmptyKept(xs: seq<string>)
    requires forall i :: 0 <= i < |xs| ==> xs[i] != ""
    ensures NonEmpty(xs) == xs
    decreases |xs|
  {
    if |xs| > 0 {
      AllNonEmptyKept(xs[1..]);
      assert xs == [xs[0]] + xs[1..];
    }
  }

  /** One iteration of the top-up loop's inner `for`: one of three strategies. */
  datatype Step =
    | InfoBased(info: nat, length: int, draws: V.Draws)
    | RandomEnhanced(length: int, random: RandomPassword.Draws)
    | CombinedEnhanced(sample: seq<nat>, length: int, draws: V.Draws)

  /** `''.join(random.sample(info_list, ...))` for the sampled indices. */
  function JoinSample(infos: seq<string>, sample: seq<nat>): string
    requires forall j :: 0 <= j < |sample| ==> sample[j] < |infos|
  {
    if |sample| == 0 then "" else infos[sample[0]] + JoinSample(infos, sample[1..])
  }

  /** The joined sample is made of the sampled answers' characters and nothing
      else, and is as long as they are together. */
  lemma {:induction false} JoinSampleChars(infos: seq<string>, sample: seq<nat>)
    requires forall j :: 0 <= j < |sample| ==> sample[j] < |infos|
    ensures forall c :: c in JoinSample(infos, sample) <==> exists j :: 0 <= j < |sample| && c in infos[sample[j]]
    ensures |JoinSample(infos, sample)| == SampleLength(infos, sample)
    decreases |sample|
  {
    if |sample| > 0 {
      JoinSampleChars(infos, sample[1..]);
      forall c | c in JoinSample(infos, sample)
        ensures exists j :: 0 <= j < |sample| && c in infos[sample[j]]
      {
        if c !in infos[sample[0]] {
          var j :| 0 <= j < |sample[1..]| && c in infos[sample[1..][j]];
          assert c in infos[sample[j + 1]];
        }
      }
      forall c | exists j :: 0 <= j < |sample| && c in infos[sample[j]]
        ensures c in JoinSample(infos, sample)
      {
        var j :| 0 <= j < |sample| && c in infos[sample[j]];
        if j > 0 {
          assert c in infos[sample[1..][j - 1]];
        }
      }
    }
  }

  /** The total length of the sampled answers. */
  function SampleLength(infos: seq<string>, sample: seq<nat>): nat
    requires forall j :: 0 <= j < |sample| ==> sample[j] < |infos|
  {
    if |sample| == 0 then 0 else |infos[sample[0]]| + SampleLength(infos, sample[1..])
  }

  /** The draws of a step are possible outcomes: `random.choice(info_list)`,
      `random.randint` bounds, a `random.sample` of distinct indices. */
  predicate StepFits(infos: seq<string>, n: V.Numbers, s: Step) {
    match s
    case InfoBased(i, length, d) =>
      i < |infos| && 10 <= length <= 18 && V.Fits(n, infos[i], length, d)
    case RandomEnhanced(length, d) =>
      12 <= length <= 20 && RandomPassword.Fits(length, d)
    case CombinedEnhanced(sample, length, d) =>
      && |sample| == Min(3, |infos|)
      && Distinct(sample)
      && (forall j :: 0 <= j < |sample| ==> sample[j] < |infos|)
      && 14 <= length <= 20
      && V.Fits(n, JoinSample(infos, sample), length, d)
  }

  /** A candidate of a top-up step: 10 to 20 characters, and no space when the
      formatted numbers have none. */
  predicate Candidate(n: V.Numbers, x: string) {
    10 <= |x| <= 20 && (V.SpaceFree(n) ==> ' ' !in x)
  }

  /** The eight variations of one base for a drawn length of 10 to 20. */
  function Variants(n: V.Numbers, base: string, length: int, d: V.Draws): (r: seq<string>)
    requires 10 <= length <= 20 && V.Fits(n, base, length, d)
    ensures forall x :: x in r ==> |x| == length && Candidate(n, x)
  {
    V.GenerateSpaceFree(n, base, length, d);
    V.Generate(n, base, length, d)
  }

  /** The one password of a random-enhanced step. */
  function RandomVariant(n: V.Numbers, length: int, d: RandomPassword.Draws): (r: seq<string>)
    requires 12 <= length <= 20 && RandomPassword.Fits(length, d)
    ensures forall x :: x in r ==> |x| == length && Candidate(n, x)
  {
    [RandomPassword.GenerateRandomEnhanced(length, d)]
  }

  /** The candidates one step adds to the batch. */
  function StepOutput(infos: seq<string>, n: V.Numbers, s: Step): (r: seq<string>)
    requires StepFits(infos, n, s)
    ensures forall x :: x in r ==> Candidate(n, x)
  {
    match s
    case InfoBased(i, length, d) =>
      Variants(n, infos[i], length, d)
    case RandomEnhanced(length, d) =>
      RandomVariant(n, length, d)
    case CombinedEnhanced(sample, length, d) =>
      Variants(n, JoinSample(infos, sample), length, d)
  }

  /** Every step of a list fits; stated step by step so that it unfolds only
      as far as a proof walks down the list. */
  predicate StepsFit(infos: seq<string>, n: V.Numbers, steps: seq<Step>)
    decreases |steps|
  {
    |steps| == 0 || (StepFits(infos, n, steps[0]) && StepsFit(infos, n, steps[1..]))
  }

  /** The candidates of several steps, in order. */
  function Batch(infos: seq<string>, n: V.Numbers, steps: seq<Step>): (r: seq<string>)
    requires StepsFit(infos, n, steps)
    ensures forall x :: x in r ==> Candidate(n, x)
    decreases |steps|
  {
    if |steps| == 0 then [] else StepOutput(infos, n, steps[0]) + Batch(infos, n, steps[1..])
  }

  /** The first `k` steps of a fitting list fit. */
  lemma {:induction false} PrefixFits(infos: seq<string>, n: V.Numbers, steps: seq<Step>, k: nat)
    requires StepsFit(infos, n, steps)
    requires k <= |steps|
    ensures StepsFit(infos, n, steps[..k])
    decreases k
  {
    if k > 0 {
      var prefix := steps[..k];
      assert prefix[1..] == steps[1..][..k - 1];
      PrefixFits(infos, n, steps[1..], k - 1);
    }
  }

  /** The first `k` steps of a fitting list fit, and their candidates are among
      the whole list's. */
  lemma {:induction false} BatchPrefix(infos: seq<string>, n: V.Numbers, steps: seq<Step>, k: nat)
    requires StepsFit(infos, n, steps)
    requires k <= |steps|
    ensures StepsFit(infos, n, steps[..k])
    ensures forall x :: x in Batch(infos, n, steps[..k]) ==> x in Batch(infos, n, steps)
    decreases k
  {
    PrefixFits(infos, n, steps, k);
    if k > 0 {
      var prefix := steps[..k];
      assert prefix[0] == steps[0];
      assert prefix[1..] == steps[1..][..k - 1];
      BatchPrefix(infos, n, steps[1..], k - 1);
      var head := StepOutput(infos, n, steps[0]);
      assert Batch(infos, n, prefix) == head + Batch(infos, n, prefix[1..]);
      assert Batch(infos, n, steps) == head + Batch(infos, n, steps[1..]);
    }
  }

  /** One round of the top-up loop: the steps it may draw from (at least as many
      as the batch size, which never exceeds 100) and the order `list(set(...))`
      leaves the pool in. */
  datatype Round = Round(steps: seq<Step>, order: nat -> nat)

  predicate RoundFits(infos: seq<string>, n: V.Numbers, r: Round) {
    100 <= |r.steps| && StepsFit(infos, n, r.steps)
  }

  /** Every candidate any supplied round could produce. */
  function RoundsOutput(infos: seq<string>, n: V.Numbers, rounds: seq<Round>): (r: seq<string>)
    requires RoundsFit(infos, n, rounds)
    ensures forall x :: x in r ==> Candidate(n, x)
  {
    if |rounds| == 0 then []
    else
      assert RoundFits(infos, n, rounds[0]);
      Batch(infos, n, rounds[0].steps) + RoundsOutput(infos, n, rounds[1..])
  }

  /** The candidates of the first `m` steps of a round: the steps the inner
      `for` runs before `generated_count` reaches the requested count. */
  function RoundBatch(infos: seq<string>, n: V.Numbers, round: Round, m: nat): (r: seq<string>)
    requires RoundFits(infos, n, round) && m <= 100
    ensures forall x :: x in r ==> Candidate(n, x) && x in Batch(infos, n, round.steps)
  {
    BatchPrefix(infos, n, round.steps, m);
    Batch(infos, n, round.steps[..m])
  }

  /** The pool after one round: `min(batch_size, requested - len(pool))` steps
      run, their candidates join the pool, and `list(set(...))` de-duplicates. */
  function AfterRound(infos: seq<string>, n: V.Numbers, pool: seq<string>, requested: int, batchSize: nat,
                      round: Round): (next: seq<string>)
    requires RoundFits(infos, n, round)
    requires Distinct(pool) && 1 <= batchSize <= 100 && |pool| < requested
    ensures Distinct(next)
    ensures forall x :: x in next <==>
      x in pool || x in RoundBatch(infos, n, round, Min(batchSize, requested - |pool|))
  {
    var batch := RoundBatch(infos, n, round, Min(batchSize, requested - |pool|));
    FisherYatesPermutes(Dedup(pool + batch), round.order);
    FisherYates(Dedup(pool + batch), round.order)
  }

  /** A round whose batch holds at least one candidate not yet in the pool
      strictly grows the pool: the loop makes progress exactly then. */
  lemma AfterRoundGrows(infos: seq<string>, n: V.Numbers, pool: seq<string>, requested: int, batchSize: nat,
                        round: Round, x: string)
    requires RoundFits(infos, n, round)
    requires Distinct(pool) && 1 <= batchSize <= 100 && |pool| < requested
    requires x in RoundBatch(infos, n, round, Min(batchSize, requested - |pool|)) && x !in pool
    ensures |AfterRound(infos, n, pool, requested, batchSize, round)| > |pool|
  {
    DedupGrows(pool, RoundBatch(infos, n, round, Min(batchSize, requested - |pool|)), x);
  }

  /** A pool together with the number of supplied rounds the top-up loop did
      not need. */
  datatype Outcome = Outcome(passwords: seq<string>, roundsLeft: nat)

  /** The top-up `while` loop, for as many rounds as are supplied. It leaves
      rounds unused only when it stopped because the pool reached the
      requested count. */
  function TopUp(infos: seq<string>, n: V.Numbers, pool: seq<string>, requested: int, batchSize: nat,
                 rounds: seq<Round>): (r: Outcome)
    requires Distinct(pool) && 1 <= batchSize <= 100
    requires RoundsFit(infos, n, rounds)
    ensures Distinct(r.passwords)
    ensures forall x :: x in pool ==> x in r.passwords
    ensures forall x :: x in r.passwords ==> x in pool || x in RoundsOutput(infos, n, rounds)
    ensures r.roundsLeft <= |rounds|
    ensures r.roundsLeft > 0 ==> |r.passwords| >= requested
    ensures |pool| >= requested ==> r == Outcome(pool, |rounds|)
    decreases |rounds|
  {
    if |pool| >= requested || |rounds| == 0 then Outcome(pool, |rounds|)
    else
      var next := AfterRound(infos, n, pool, requested, batchSize, rounds[0]);
      TopUp(infos, n, next, requested, batchSize, rounds[1..])
  }

  /** Each supplied round, run on the pool as the loop leaves it, draws at
      least one candidate that pool does not hold yet. */
  predicate EachRoundAddsNew(infos: seq<string>, n: V.Numbers, pool: seq<string>, requested: int, batchSize: nat,
                             rounds: seq<Round>)
    requires Distinct(pool) && 1 <= batchSize <= 100
    requires RoundsFit(infos, n, rounds)
    decreases |rounds|
  {
    || |rounds| == 0
    || |pool| >= requested
    || (&& (exists x :: x in RoundBatch(infos, n, rounds[0], Min(batchSize, requested - |pool|)) && x !in pool)
        && EachRoundAddsNew(infos, n, AfterRound(infos, n, pool, requested, batchSize, rounds[0]),
                            requested, batchSize, rounds[1..]))
  }

  /** The loop reaches the requested count as soon as it is given one round
      per missing password, each bringing something new. */
  lemma {:induction false} TopUpCompletes(infos: seq<string>, n: V.Numbers, pool: seq<string>, requested: int,
                                          batchSize: nat, rounds: seq<Round>)
    requires Distinct(pool) && 1 <= batchSize <= 100
    requires RoundsFit(infos, n, rounds)
    requires EachRoundAddsNew(infos, n, pool, requested, batchSize, rounds)
    requires requested - |pool| <= |rounds|
    ensures |TopUp(infos, n, pool, requested, batchSize, rounds).passwords| >= requested
    decreases |rounds|
  {
    if |pool| < requested {
      var x :| x in RoundBatch(infos, n, rounds[0], Min(batchSize, requested - |pool|)) && x !in pool;
      AfterRoundGrows(infos, n, pool, requested, batchSize, rounds[0], x);
      var next := AfterRound(infos, n, pool, requested, batchSize, rounds[0]);
      TopUpCompletes(infos, n, next, requested, batchSize, rounds[1..]);
    }
  }

  /** All random draws of one `generate_passwords` call. */
  datatype Draws = Draws(
    perInfo: seq<V.Draws>,
    perGroup: seq<V.Draws>,
    perCombo: seq<V.Draws>,
    order: nat -> nat,
    rounds: seq<Round>)

  /** The draws of every round are possible outcomes. */
  predicate RoundsFit(infos: seq<string>, n: V.Numbers, rounds: seq<Round>) {
    forall k :: 0 <= k < |rounds| ==> RoundFits(infos, n, rounds[k])
  }

  /** One set of variation draws per base, each a possible outcome. */
  predicate DrawsFit(n: V.Numbers, bases: seq<string>, length: int, draws: seq<V.Draws>) {
    |draws| == |bases| && forall i :: 0 <= i < |bases| ==> V.Fits(n, bases[i], length, draws[i])
  }

  predicate Fits(u: UserInfo, d: Draws) {
    var n := NumbersOf(u);
    var infos := InfoList(u);
    && DrawsFit(n, infos, 12, d.perInfo)
    && DrawsFit(n, CombinedBases(infos), 16, d.perGroup)
    && DrawsFit(n, NonEmpty(BirthdayCombos(u)), 14, d.perCombo)
    && RoundsFit(infos, n, d.rounds)
  }

  /** Every candidate before de-duplication: the earlier pool, eight variations
      per non-blank field (length 12), per group of three fields (length 16)
      and per birthday combination (length 14). */
  function NaturalPool(previous: seq<string>, u: UserInfo, d: Draws): seq<string>
    requires Fits(u, d)
  {
    var n := NumbersOf(u);
    var infos := InfoList(u);
    previous
    + VariationsOfAll(n, infos, 12, d.perInfo)
    + VariationsOfAll(n, CombinedBases(infos), 16, d.perGroup)
    + VariationsOfAll(n, NonEmpty(BirthdayCombos(u)), 14, d.perCombo)
  }

  /** The natural pool starts with the earlier pool and adds eight variations
      for each answer, each group of three answers and each of the four
      birthday combinations. */
  lemma NaturalPoolSize(previous: seq<string>, u: UserInfo, d: Draws)
    requires Fits(u, d)
    ensures previous <= NaturalPool(previous, u, d)
    ensures |NaturalPool(previous, u, d)| == |previous| + 8 * (|InfoList(u)| + |CombinedBases(InfoList(u))| + 4)
  {
    KeepsBirthdayCombos(u);
  }

  /** `list(set(pool))` followed by `random.shuffle`: each candidate once,
      nothing else. */
  function Shuffled(natural: seq<string>, order: nat -> nat): (pool: seq<string>)
    ensures Distinct(pool)
    ensures forall x :: x in pool <==> x in natural
    ensures |pool| == |Dedup(natural)|
  {
    FisherYatesPermutes(Dedup(natural), order);
    FisherYates(Dedup(natural), order)
  }

  /** The de-duplicated, shuffled natural pool. */
  function ShuffledPool(previous: seq<string>, u: UserInfo, d: Draws): (pool: seq<string>)
    requires Fits(u, d)
    ensures Distinct(pool)
    ensures forall x :: x in pool <==> x in NaturalPool(previous, u, d)
    ensures |pool| == |Dedup(NaturalPool(previous, u, d))|
  {
    Shuffled(NaturalPool(previous, u, d), d.order)
  }

  /** "Limit to requested number": cut a pool that is too long, top up one that
      is too short (with a batch size fixed once from the first shortfall) and
      then cut it to the requested count. */
  function Clamp(infos: seq<string>, n: V.Numbers, pool: seq<string>, requested: int, rounds: seq<Round>)
    : (r: Outcome)
    requires Distinct(pool)
    requires RoundsFit(infos, n, rounds)
    ensures Distinct(r.passwords)
    ensures requested >= 0 ==> |r.passwords| <= requested
    ensures |pool| >= requested >= 0 ==> |r.passwords| == requested && r.passwords <= pool
    ensures requested >= 0 && r.roundsLeft > 0 ==> |r.passwords| == requested
    ensures r.roundsLeft <= |rounds|
    ensures forall x :: x in r.passwords ==> x in pool || x in RoundsOutput(infos, n, rounds)
  {
    if |pool| > requested then
      DistinctPrefix(pool, Take(pool, requested));
      Outcome(Take(pool, requested), |rounds|)
    else if |pool| < requested then
      var full := TopUp(infos, n, pool, requested, Min(100, requested - |pool|), rounds);
      DistinctPrefix(full.passwords, Take(full.passwords, requested));
      Outcome(Take(full.passwords, requested), full.roundsLeft)
    else
      Outcome(pool, |rounds|)
  }

  /** A top-up that reaches the requested count, even on its last supplied
      round, leaves exactly the requested count after the final cut. */
  lemma ClampExactWhenTopUpReaches(infos: seq<string>, n: V.Numbers, pool: seq<string>, requested: int,
                                   rounds: seq<Round>)
    requires Distinct(pool) && RoundsFit(infos, n, rounds) && |pool| < requested
    requires |TopUp(infos, n, pool, requested, Min(100, requested - |pool|), rounds).passwords| >= requested
    ensures |Clamp(infos, n, pool, requested, rounds).passwords| == requested
  {
  }

  /** The last three steps of `generate_passwords` on a natural pool:
      `list(set(...))`, `random.shuffle`, then the clamp. */
  function Complete(infos: seq<string>, n: V.Numbers, natural: seq<string>, order: nat -> nat, requested: int,
                    rounds: seq<Round>): (r: Outcome)
    requires RoundsFit(infos, n, rounds)
    ensures Distinct(r.passwords)
    ensures requested >= 0 ==> |r.passwords| <= requested
    ensures |Dedup(natural)| >= requested >= 0 ==> |r.passwords| == requested
    ensures requested >= 0 && r.roundsLeft > 0 ==> |r.passwords| == requested
    ensures forall x :: x in r.passwords ==> x in natural || x in RoundsOutput(infos, n, rounds)
  {
    Clamp(infos, n, Shuffled(natural, order), requested, rounds)
  }

  /** A short natural pool is brought to exactly the requested count when the
      supplied rounds cover every missing password and each brings a
      candidate new to the pool. */
  lemma CompleteReachesCount(infos: seq<string>, n: V.Numbers, natural: seq<string>, order: nat -> nat,
                             requested: int, rounds: seq<Round>)
    requires RoundsFit(infos, n, rounds)
    requires |Shuffled(natural, order)| < requested <= |Shuffled(natural, order)| + |rounds|
    requires EachRoundAddsNew(infos, n, Shuffled(natural, order), requested,
                              Min(100, requested - |Shuffled(natural, order)|), rounds)
    ensures |Complete(infos, n, natural, order, requested, rounds).passwords| == requested
  {
    ClampReachesCount(infos, n, Shuffled(natural, order), requested, rounds);
  }

  lemma ClampReachesCount(infos: seq<string>, n: V.Numbers, pool: seq<string>, requested: int, rounds: seq<Round>)
    requires Distinct(pool) && RoundsFit(infos, n, rounds)
    requires |pool| < requested <= |pool| + |rounds|
    requires EachRoundAddsNew(infos, n, pool, requested, Min(100, requested - |pool|), rounds)
    ensures |Clamp(infos, n, pool, requested, rounds).passwords| == requested
  {
    TopUpCompletes(infos, n, pool, requested, Min(100, requested - |pool|), rounds);
    ClampExactWhenTopUpReaches(infos, n, pool, requested, rounds);
  }

  /** `generate_passwords`: the final pool holds no duplicates, never more than
      the requested count, exactly the requested count whenever the natural pool
      already had enough distinct candidates or the top-up loop finished within
      the supplied rounds, and only candidates the pipeline generated (or that
      an earlier generation left). */
  function GeneratePasswords(previous: seq<string>, u: UserInfo, d: Draws): (r: Outcome)
    requires Fits(u, d)
    ensures Distinct(r.passwords)
    ensures u.passwordCount >= 0 ==> |r.passwords| <= u.passwordCount
    ensures |Dedup(NaturalPool(previous, u, d))| >= u.passwordCount >= 0 ==> |r.passwords| == u.passwordCount
    ensures u.passwordCount >= 0 && r.roundsLeft > 0 ==> |r.passwords| == u.passwordCount
    ensures forall x :: x in r.passwords ==>
      x in NaturalPool(previous, u, d) || x in RoundsOutput(InfoList(u), NumbersOf(u), d.rounds)
  {
    Complete(InfoList(u), NumbersOf(u), NaturalPool(previous, u, d), d.order, u.passwordCount, d.rounds)
  }

  /** Every password the generation adds, as opposed to one an earlier
      generation left, is 10 to 20 characters long and contains no space. */
  lemma GeneratedShape(previous: seq<string>, u: UserInfo, d: Draws)
    requires Fits(u, d)
    ensures forall x :: x in GeneratePasswords(previous, u, d).passwords && x !in previous ==>
      10 <= |x| <= 20 && ' ' !in x
  {
    var n := NumbersOf(u);
    var infos := InfoList(u);
    V.NumbersOfShape(u.birthYear, u.birthMonth, u.birthDay, u.favoriteNumber);
    var a := VariationsOfAll(n, infos, 12, d.perInfo);
    var b := VariationsOfAll(n, CombinedBases(infos), 16, d.perGroup);
    var c := VariationsOfAll(n, NonEmpty(BirthdayCombos(u)), 14, d.perCombo);
    var more := RoundsOutput(infos, n, d.rounds);
    var r := GeneratePasswords(previous, u, d).passwords;
    assert NaturalPool(previous, u, d) == previous + a + b + c;
    forall x | x in r && x !in previous
      ensures 10 <= |x| <= 20 && ' ' !in x
    {
      assert x in a || x in b || x in c || x in more;
    }
  }
}

=== FILE: legacy.dfy ===
/**
 The older generator in `password_generator.py`: seven answers, five
 variations per base, no clamping to a requested count.

 Its variations 1 to 5 are the same code as the current generator's, so they
 are the shared `Variations.FirstFive`; the birth month and day it never asks
 for are left empty in the formatted numbers, which those five never read.
 */
module Legacy {
  import opened Chars
  import opened PyStr
  import opened Shuffle
  import V = Variations

  datatype LegacyInfo = LegacyInfo(
    name: string,
    birthYear: int,
    favoriteColor: string,
    favoriteAnimal: string,
    hobby: string,
    favoriteNumber: int,
    city: string)

  /** `str(birth_year)` and `str(favorite_number)`. */
  function NumbersOf(u: LegacyInfo): (n: V.Numbers)
    ensures V.SpaceFree(n)
    ensures IsIntLiteral(n.year) && ParseInt(n.year) == u.birthYear
    ensures IsIntLiteral(n.favorite) && ParseInt(n.favorite) == u.favoriteNumber
  {
    IntToStrRoundTrip(u.birthYear);
    IntToStrRoundTrip(u.favoriteNumber);
    V.Numbers(IntToStr(u.birthYear), "", "", IntToStr(u.favoriteNumber))
  }

  /** The five text answers, in source order; blank ones are not filtered out. */
  function InfoFields(u: LegacyInfo): seq<string> {
    [u.name, u.favoriteColor, u.favoriteAnimal, u.hobby, u.city]
  }

  /** `generate_password_variations(base_info, length)`: five variations of the
      cleaned base, each exactly `length` characters and free of spaces. */
  function GenerateVariations(n: V.Numbers, base: string, length: int, d: V.CoreDraws): (r: seq<string>)
    requires V.CoreFit(CleanInfo(base), n, length, d)
    ensures |r| == 5
    ensures length >= 0 ==> forall x :: x in r ==> |x| == length
    ensures V.SpaceFree(n) ==> forall x :: x in r ==> ' ' !in x
  {
    FiveSpaceFree(CleanInfo(base), n, length, d);
    V.FirstFive(CleanInfo(base), n, length, d)
  }

  lemma FiveSpaceFree(c: string, n: V.Numbers, length: int, d: V.CoreDraws)
    requires V.CoreFit(c, n, length, d) && ' ' !in c
    ensures V.SpaceFree(n) ==> forall x :: x in V.FirstFive(c, n, length, d) ==> ' ' !in x
  {
    if V.SpaceFree(n) {
      V.FirstFiveSpaceFree(c, n, length, d);
    }
  }

  /** All random draws of one `generate_passwords` call. */
  datatype Draws = Draws(perInfo: seq<V.CoreDraws>, combined: V.CoreDraws, order: nat -> nat)

  predicate Fits(u: LegacyInfo, d: Draws) {
    var n := NumbersOf(u);
    var fields := InfoFields(u);
    && |d.perInfo| == 5
    && (forall i :: 0 <= i < 5 ==> V.CoreFit(CleanInfo(fields[i]), n, 12, d.perInfo[i]))
    && V.CoreFit(CleanInfo(JoinCleaned(fields)), n, 16, d.combined)
  }

  /** Five variations of length 12 for each answer, in order. */
  function PerInfo(u: LegacyInfo, d: Draws, k: nat): (r: seq<string>)
    requires Fits(u, d) && k <= 5
    ensures |r| == 5 * k
    ensures forall x :: x in r ==> |x| == 12 && ' ' !in x
  {
    if k == 0 then []
    else
      PerInfo(u, d, k - 1)
      + GenerateVariations(NumbersOf(u), InfoFields(u)[k - 1], 12, d.perInfo[k - 1])
  }

  /** Every candidate before de-duplication: the earlier pool, then the 25
      per-answer variations, then five of length 16 for the joined answers. */
  function NaturalPool(previous: seq<string>, u: LegacyInfo, d: Draws): (r: seq<string>)
    requires Fits(u, d)
    ensures |r| == |previous| + 30
    ensures forall x :: x in r && x !in previous ==> (|x| == 12 || |x| == 16) && ' ' !in x
  {
    previous + PerInfo(u, d, 5)
    + GenerateVariations(NumbersOf(u), JoinCleaned(InfoFields(u)), 16, d.combined)
  }

  /** `generate_passwords`: `list(set(...))` then `random.shuffle`. The result
      holds each candidate exactly once, at most thirty more than the earlier
      pool, and only 12- or 16-character space-free passwords besides it. */
  function GeneratePasswords(previous: seq<string>, u: LegacyInfo, d: Draws): (r: seq<string>)
    requires Fits(u, d)
    ensures Distinct(r)
    ensures forall x :: x in r <==> x in NaturalPool(previous, u, d)
    ensures |r| <= |previous| + 30
    ensures forall x :: x in r && x !in previous ==> (|x| == 12 || |x| == 16) && ' ' !in x
  {
    var unique := Dedup(NaturalPool(previous, u, d));
    FisherYatesPermutes(unique, d.order);
    FisherYates(unique, d.order)
  }

  /** The result is a reordering of the de-duplicated pool: nothing lost,
      nothing added, nothing repeated. */
  lemma GeneratePasswordsPermutes(previous: seq<string>, u: LegacyInfo, d: Draws)
    requires Fits(u, d)
    ensures multiset(GeneratePasswords(previous, u, d)) == multiset(Dedup(NaturalPool(previous, u, d)))
    ensures |GeneratePasswords(previous, u, d)| == |Dedup(NaturalPool(previous, u, d))|
  {
    FisherYatesPermutes(Dedup(NaturalPool(previous, u, d)), d.order);
  }
}

=== FILE: profile.dfy ===
/**
 The personal information `ask_questions` collects, and the pure validation it
 applies to the answers: the password count is raised to at least 1, an
 out-of-range birth month or day falls back to 1, and a pet answer of "none"
 becomes empty. The prompts themselves depend on terminal input and are not
 modelled; the reply to the y/n confirmation asked for counts above 1000 is a
 parameter of the validation.
 */
module Profile {
  import opened Chars

  datatype UserInfo = UserInfo(
    passwordCount: int,
    name: string,
    nickname: string,
    birthYear: int,
    birthMonth: int,
    birthDay: int,
    favoriteColor: string,
    favoriteAnimal: string,
    hobby: string,
    favoriteNumber: int,
    city: string,
    country: string,
    favoriteFood: string,
    favoriteSport: string,
    favoriteMovie: string,
    favoriteMusic: string,
    profession: string,
    favoriteSeason: string,
    petName: string)

  /** The answers accepted as "continue" when more than 1000 passwords are
      requested: y, yes and the Arabic "na'am" and its first letter. */
  predicate Confirms(answer: string) {
    Lower(answer) in ["y", "yes", "\U{646}\U{639}\U{645}", "\U{646}"]
  }

  /** A requested count below 1 becomes 1; one above 1000 stays only when the
      confirmation answer accepts it, and becomes 100 otherwise. */
  function ClampCount(n: int, confirmation: string): (r: int)
    ensures 1 <= r
    ensures 1 <= n <= 1000 ==> r == n
    ensures n < 1 ==> r == 1
    ensures n > 1000 ==> (r == n <==> Confirms(confirmation)) && (r == 100 <==> !Confirms(confirmation))
  {
    var n := if n < 1 then 1 else n;
    if n > 1000 && !Confirms(confirmation) then 100 else n
  }

  /** A month outside 1..12 becomes January. */
  function ClampMonth(m: int): (r: int)
    ensures 1 <= r <= 12
    ensures 1 <= m <= 12 ==> r == m
    ensures !(1 <= m <= 12) ==> r == 1
  {
    if !(1 <= m <= 12) then 1 else m
  }

  /** A day outside 1..31 becomes the 1st. */
  function ClampDay(d: int): (r: int)
    ensures 1 <= r <= 31
    ensures 1 <= d <= 31 ==> r == d
    ensures !(1 <= d <= 31) ==> r == 1
  {
    if !(1 <= d <= 31) then 1 else d
  }

  /** The pet answer "none", in any ASCII letter case, means no pet: the
      result never reads as "none" itself, and only that answer is dropped. */
  function PetAnswer(answer: string): (r: string)
    ensures Lower(r) != "none"
    ensures r == answer || r == ""
    ensures r == "" <==> answer == "" || Lower(answer) == "none"
  {
    if Lower(answer) == "none" then "" else answer
  }

  /** Clearing the pet answer is a one-shot change: a cleared or kept answer is
      left as it is by a second pass. */
  lemma PetAnswerIdempotent(answer: string)
    ensures PetAnswer(PetAnswer(answer)) == PetAnswer(answer)
  {
  }

  /** The answers as `ask_questions` leaves them once validation has run;
      `confirmation` is the reply to the large-count prompt, read only when
      more than 1000 passwords are requested. */
  function Validate(raw: UserInfo, confirmation: string): (u: UserInfo)
    ensures Valid(u)
    ensures u.passwordCount == ClampCount(raw.passwordCount, confirmation)
    ensures u.birthMonth == ClampMonth(raw.birthMonth) && u.birthDay == ClampDay(raw.birthDay)
    ensures u.petName == PetAnswer(raw.petName)
    ensures u.(passwordCount := raw.passwordCount, birthMonth := raw.birthMonth,
               birthDay := raw.birthDay, petName := raw.petName) == raw
  {
    raw.(passwordCount := ClampCount(raw.passwordCount, confirmation),
         birthMonth := ClampMonth(raw.birthMonth),
         birthDay := ClampDay(raw.birthDay),
         petName := PetAnswer(raw.petName))
  }

  /** What validation guarantees about the numeric answers. */
  predicate Valid(u: UserInfo) {
    u.passwordCount >= 1 && 1 <= u.birthMonth <= 12 && 1 <= u.birthDay <= 31
  }

  /** Validating answers that are already valid changes only a "none" pet
      answer, and validating twice with the same confirmation reply is the
      same as validating once. */
  lemma ValidateIdempotent(raw: UserInfo, confirmation: string)
    ensures Validate(Validate(raw, confirmation), confirmation) == Validate(raw, confirmation)
    ensures Valid(raw) && raw.passwordCount <= 1000 && Lower(raw.petName) != "none"
            ==> Validate(raw, confirmation) == raw
  {
    var u := Validate(raw, confirmation);
    if Lower(raw.petName) == "none" {
      assert u.petName == "";
      assert Lower(u.petName) == "";
    }
  }

  /** The fourteen text fields `generate_passwords` draws from, in source order. */
  function InfoFields(u: UserInfo): seq<string> {
    [u.name, u.nickname, u.favoriteColor, u.favoriteAnimal, u.hobby, u.city, u.country,
     u.favoriteFood, u.favoriteSport, u.favoriteMovie, u.favoriteMusic, u.profession,
     u.favoriteSeason, u.petName]
  }

  /** `a` is `b` with some elements left out, the rest in their order. */
  predicate SubSeq<T(==)>(a: seq<T>, b: seq<T>)
    decreases |b|
  {
    |a| == 0 || (|b| > 0 && ((a[0] == b[0] && SubSeq(a[1..], b[1..])) || SubSeq(a, b[1..])))
  }

  /** `[info for info in fields if info and info.strip()]`: the non-blank
      fields, in their order. */
  function KeepNotBlank(fields: seq<string>): (r: seq<string>)
    ensures |r| <= |fields|
    ensures forall i :: 0 <= i < |r| ==> NotBlank(r[i])
    ensures forall x :: x in r <==> x in fields && NotBlank(x)
    ensures forall x :: multiset(r)[x] == if NotBlank(x) then multiset(fields)[x] else 0
    ensures SubSeq(r, fields)
  {
    if |fields| == 0 then []
    else
      var rest := KeepNotBlank(fields[1..]);
      if NotBlank(fields[0]) then
        assert ([fields[0]] + rest)[1..] == rest;
        assert fields == [fields[0]] + fields[1..];
        [fields[0]] + rest
      else
        assert fields == [fields[0]] + fields[1..];
        rest
  }

  /** The non-blank text fields, in source order. */
  function InfoList(u: UserInfo): (r: seq<string>)
    ensures |r| <= 14
    ensures forall i :: 0 <= i < |r| ==> NotBlank(r[i])
    ensures forall x :: x in r <==> x in InfoFields(u) && NotBlank(x)
    ensures forall x :: multiset(r)[x] == if NotBlank(x) then multiset(InfoFields(u))[x] else 0
    ensures SubSeq(r, InfoFields(u))
  {
    KeepNotBlank(InfoFields(u))
  }
}

=== FILE: pystr.dfy ===
/**
 The Python string and integer primitives the generator is built from:
 slicing with Python's clamping rules, `str(int)`, `str.zfill`, substring
 search, and the possible outcomes of `random.choices`.
 */
module PyStr {
  import opened Chars

  function Min(a: int, b: int): int { if a <= b then a else b }
  function Max(a: int, b: int): int { if a >= b then a else b }

  /** `s[:n]` for any integer `n`: a negative `n` counts from the end. */
  function Take<T>(s: seq<T>, n: int): (r: seq<T>)
    ensures r <= s
    ensures n >= 0 ==> |r| == Min(n, |s|)
    ensures n < 0 ==> |r| == Max(0, |s| + n)
  {
    if n >= 0 then s[..Min(n, |s|)] else s[..Max(0, |s| + n)]
  }

  /** `s[n:]` for `n >= 0`: what `s[:n]` leaves over. */
  function Drop<T>(s: seq<T>, n: nat): (r: seq<T>)
    ensures Take(s, n) + r == s
    ensures |r| == Max(0, |s| - n)
  {
    s[Min(n, |s|)..]
  }

  /** `s[a:b]` for `0 <= a <= b`: the part of `s[:b]` after `s[:a]`. */
  function Slice<T>(s: seq<T>, a: nat, b: nat): (r: seq<T>)
    requires a <= b
    ensures Take(s, a) + r == Take(s, b)
  {
    s[Min(a, |s|)..Min(b, |s|)]
  }

  /** `s[-n:]` for `n > 0`: the last `n` elements, or all of `s` when shorter. */
  function TakeLast<T>(s: seq<T>, n: nat): (r: seq<T>)
    requires n > 0
    ensures |r| == Min(n, |s|)
    ensures s[..|s| - |r|] + r == s
  {
    s[Max(0, |s| - n)..]
  }

  /** `p` occurs in `s` starting at index `i`. */
  predicate OccursAt(s: string, p: string, i: nat) {
    i + |p| <= |s| && s[i..i + |p|] == p
  }

  /** `p in s` on strings. */
  predicate Contains(s: string, p: string) {
    exists i: nat | i <= |s| :: OccursAt(s, p, i)
  }

  /** A possible outcome of `''.join(random.choices(alphabet.Text(), k=k))`:
      exactly `k` characters of the alphabet, and none at all when `k <= 0`. */
  predicate Drawn(s: string, k: int, alphabet: Alphabet) {
    |s| == Max(0, k) && forall i :: 0 <= i < |s| ==> alphabet.Allows(s[i])
  }

  predicate AllDigits(s: string) { forall i :: 0 <= i < |s| ==> IsDigit(s[i]) }

  function DigitChar(d: nat): (c: char)
    requires d < 10
    ensures IsDigit(c) && c as int - '0' as int == d
  {
    ('0' as int + d) as char
  }

  /** Decimal value of a digit string, as `int()` reads it. */
  function DigitsValue(s: string): nat
    requires AllDigits(s)
  {
    if |s| == 0 then 0
    else DigitsValue(s[..|s| - 1]) * 10 + (s[|s| - 1] as int - '0' as int)
  }

  /** `str(n)` for `n >= 0`: decimal digits without leading zeros. */
  function NatToStr(n: nat): (r: string)
    ensures 1 <= |r|
    ensures AllDigits(r)
    ensures r[0] == '0' ==> |r| == 1
    decreases n
  {
    if n < 10 then [DigitChar(n)] else NatToStr(n / 10) + [DigitChar(n % 10)]
  }

  /** `str(n)` for any integer: a leading '-' for negative values. */
  function IntToStr(n: int): (r: string)
    ensures ' ' !in r
    ensures 1 <= |r|
    ensures forall i :: 0 <= i < |r| ==> IsDigit(r[i]) || (i == 0 && r[i] == '-')
    ensures r[0] == '-' <==> n < 0
  {
    if n < 0 then "-" + NatToStr(-n) else NatToStr(n)
  }

  /** The literals `int()` accepts in this model: an optional '-' then digits. */
  predicate IsIntLiteral(s: string) {
    (1 <= |s| && AllDigits(s)) || (2 <= |s| && s[0] == '-' && AllDigits(s[1..]))
  }

  /** `int(s)` on a literal. */
  function ParseInt(s: string): int
    requires IsIntLiteral(s)
  {
    if s[0] == '-' then -(DigitsValue(s[1..]) as int) else DigitsValue(s)
  }

  lemma {:induction false} NatToStrValue(n: nat)
    ensures DigitsValue(NatToStr(n)) == n
    decreases n
  {
    if n >= 10 {
      var s := NatToStr(n);
      NatToStrValue(n / 10);
      assert s[..|s| - 1] == NatToStr(n / 10);
    }
  }

  /** `int(str(n)) == n` for every integer. */
  lemma IntToStrRoundTrip(n: int)
    ensures IsIntLiteral(IntToStr(n))
    ensures ParseInt(IntToStr(n)) == n
  {
    if n < 0 {
      NatToStrValue(-n);
      assert IntToStr(n)[1..] == NatToStr(-n);
    } else {
      NatToStrValue(n);
    }
  }

  function Zeros(k: nat): (r: string)
    ensures |r| == k && forall i :: 0 <= i < k ==> r[i] == '0'
  {
    seq(k, _ => '0')
  }

  /** `s.zfill(width)`: left-pad with '0' to `width`, keeping a leading sign in front. */
  function ZFill(s: string, width: int): (r: string)
    ensures |r| == Max(width, |s|)
  {
    if |s| >= width then s
    else if |s| > 0 && (s[0] == '+' || s[0] == '-') then [s[0]] + Zeros(width - |s|) + s[1..]
    else Zeros(width - |s|) + s
  }

  lemma {:induction false} LeadingZeroValue(s: string)
    requires AllDigits(s)
    ensures AllDigits("0" + s)
    ensures DigitsValue("0" + s) == DigitsValue(s)
    decreases |s|
  {
    if |s| > 0 {
      var t := "0" + s;
      assert t[..|t| - 1] == "0" + s[..|s| - 1];
      LeadingZeroValue(s[..|s| - 1]);
    }
  }

  lemma {:induction false} ZerosValue(k: nat, s: string)
    requires AllDigits(s)
    ensures AllDigits(Zeros(k) + s)
    ensures DigitsValue(Zeros(k) + s) == DigitsValue(s)
    decreases k
  {
    if k > 0 {
      ZerosValue(k - 1, s);
      assert Zeros(k) + s == "0" + (Zeros(k - 1) + s);
      LeadingZeroValue(Zeros(k - 1) + s);
    } else {
      assert Zeros(k) + s == s;
    }
  }

  /** Zero-filling `str(n)` for `n >= 0` keeps its decimal value and only ever
      adds digits, so `int(str(n).zfill(w)) == n`. */
  lemma ZFillKeepsValue(n: nat, width: int)
    ensures AllDigits(ZFill(NatToStr(n), width))
    ensures |ZFill(NatToStr(n), width)| == Max(width, |NatToStr(n)|)
    ensures DigitsValue(ZFill(NatToStr(n), width)) == n
  {
    var s := NatToStr(n);
    NatToStrValue(n);
    if |s| < width {
      ZerosValue(width - |s|, s);
    }
  }
}

=== FILE: random_password.dfy ===
/**
 `generate_random_enhanced_password`: one character from each class, then
 `length - 4` characters from all classes, then a shuffle.
 */
module RandomPassword {
  import opened Chars
  import opened PyStr
  import opened Shuffle

  /** The random draws of one call: the four guaranteed characters, the filler
      characters, and the shuffle's draws. */
  datatype Draws = Draws(lower: char, upper: char, digit: char, special: char, rest: string, order: nat -> nat)

  predicate Fits(length: int, d: Draws) {
    && Lowercase.Allows(d.lower)
    && Uppercase.Allows(d.upper)
    && Digits.Allows(d.digit)
    && SpecialSet.Allows(d.special)
    // `for _ in range(length - 4)` runs no iteration when `length < 4`
    && Drawn(d.rest, length - 4, Everything)
  }

  /** The characters before the shuffle. */
  function Unshuffled(d: Draws): string {
    [d.lower, d.upper, d.digit, d.special] + d.rest
  }

  /** The password: always at least 4 characters, exactly `length` from 4 on,
      with every character class present and nothing outside the four classes. */
  function GenerateRandomEnhanced(length: int, d: Draws): (r: string)
    requires Fits(length, d)
    ensures |r| == Max(4, length)
    ensures HasLower(r) && HasUpper(r) && HasDigit(r) && HasSpecial(r)
    ensures forall i :: 0 <= i < |r| ==> Everything.Allows(r[i])
    ensures ' ' !in r
  {
    NoAlphabetAllowsSpace(Everything);
    ShuffledKeepsClasses(Unshuffled(d), d);
    FisherYates(Unshuffled(d), d.order)
  }

  lemma ShuffledKeepsClasses(password: string, d: Draws)
    requires password == Unshuffled(d)
    requires Lowercase.Allows(d.lower) && Uppercase.Allows(d.upper)
    requires Digits.Allows(d.digit) && SpecialSet.Allows(d.special)
    requires forall i :: 0 <= i < |d.rest| ==> Everything.Allows(d.rest[i])
    ensures var r := FisherYates(password, d.order);
      HasLower(r) && HasUpper(r) && HasDigit(r) && HasSpecial(r)
      && forall i :: 0 <= i < |r| ==> Everything.Allows(r[i])
  {
    var r := FisherYates(password, d.order);
    FisherYatesPermutes(password, d.order);
    assert password[0] == d.lower && password[1] == d.upper;
    assert password[2] == d.digit && password[3] == d.special;
    assert d.lower in r && d.upper in r && d.digit in r && d.special in r;
    forall i | 0 <= i < |r|
      ensures Everything.Allows(r[i])
    {
      assert r[i] in password;
      var k :| 0 <= k < |password| && password[k] == r[i];
      if k >= 4 {
        assert password[k] == d.rest[k - 4];
      }
    }
  }

  /** The password is a rearrangement of exactly the drawn characters. */
  lemma RandomEnhancedPermutesDraws(length: int, d: Draws)
    requires Fits(length, d)
    ensures multiset(GenerateRandomEnhanced(length, d)) == multiset(Unshuffled(d))
  {
  }
}

=== FILE: shuffle.dfy ===
/**
 Reordering and de-duplication of candidate lists.

 `random.shuffle` is Python's Fisher-Yates pass: for `i` from `len - 1` down
 to 1 it swaps position `i` with a position `j` drawn from `[0, i]`. The draws
 are a parameter here: a total function `pick`, with `j == pick(i) % (i + 1)`,
 so every sequence of outcomes of `randbelow(i + 1)` is some `pick`.

 `list(set(xs))` keeps one copy of each element in an order Python does not
 specify; it is modelled as `Dedup` (first occurrences, in order) followed by a
 Fisher-Yates reorder, which reaches every order.
 */
module Shuffle {

  /** No element occurs twice. */
  predicate Distinct<T(==)>(s: seq<T>) {
    forall i, j :: 0 <= i < j < |s| ==> s[i] != s[j]
  }

  function Swap<T>(s: seq<T>, i: nat, j: nat): (r: seq<T>)
    requires i < |s| && j < |s|
    ensures |r| == |s| && r[i] == s[j] && r[j] == s[i]
    ensures forall k :: 0 <= k < |s| && k != i && k != j ==> r[k] == s[k]
    ensures multiset(r) == multiset(s)
  {
    s[i := s[j]][j := s[i]]
  }

  lemma SwapKeepsDistinct<T>(s: seq<T>, i: nat, j: nat)
    requires i < |s| && j < |s| && Distinct(s)
    ensures Distinct(Swap(s, i, j))
  {
    var r := Swap(s, i, j);
    // r[k] == s[f(k)] for the transposition f of i and j, which is injective
    forall a, b | 0 <= a < b < |r|
      ensures r[a] != r[b]
    {
      var fa := if a == i then j else if a == j then i else a;
      var fb := if b == i then j else if b == j then i else b;
      assert r[a] == s[fa] && r[b] == s[fb];
    }
  }

  /** The Fisher-Yates pass over positions `k - 1` down to 1. */
  function ShuffleBelow<T>(s: seq<T>, pick: nat -> nat, k: nat): (r: seq<T>)
    requires k <= |s|
    ensures |r| == |s|
    ensures multiset(r) == multiset(s)
    decreases k
  {
    if k <= 1 then s
    else ShuffleBelow(Swap(s, k - 1, pick(k - 1) % k), pick, k - 1)
  }

  /** `random.shuffle(s)` with the random draws supplied by `pick`. */
  function FisherYates<T>(s: seq<T>, pick: nat -> nat): (r: seq<T>)
    ensures |r| == |s|
    ensures multiset(r) == multiset(s)
  {
    ShuffleBelow(s, pick, |s|)
  }

  lemma {:induction false} ShuffleBelowKeepsDistinct<T>(s: seq<T>, pick: nat -> nat, k: nat)
    requires k <= |s| && Distinct(s)
    ensures Distinct(ShuffleBelow(s, pick, k))
    decreases k
  {
    if k > 1 {
      SwapKeepsDistinct(s, k - 1, pick(k - 1) % k);
      ShuffleBelowKeepsDistinct(Swap(s, k - 1, pick(k - 1) % k), pick, k - 1);
    }
  }

  /** A shuffle is a permutation: same elements, same multiplicities, and a
      list without duplicates stays without duplicates. */
  lemma FisherYatesPermutes<T>(s: seq<T>, pick: nat -> nat)
    ensures multiset(FisherYates(s, pick)) == multiset(s)
    ensures forall x :: x in FisherYates(s, pick) <==> x in s
    ensures Distinct(s) ==> Distinct(FisherYates(s, pick))
  {
    var r := FisherYates(s, pick);
    assert forall x :: x in r <==> x in multiset(r);
    assert forall x :: x in s <==> x in multiset(s);
    if Distinct(s) {
      ShuffleBelowKeepsDistinct(s, pick, |s|);
    }
  }

  /** A prefix of a list without duplicates has none either. */
  lemma DistinctPrefix<T>(s: seq<T>, t: seq<T>)
    requires t <= s && Distinct(s)
    ensures Distinct(t)
  {
    assert forall i :: 0 <= i < |t| ==> t[i] == s[i];
  }

  /** One copy of each element, in order of first occurrence. */
  function Dedup<T(==,!new)>(s: seq<T>): (r: seq<T>)
    ensures Distinct(r)
    ensures forall x :: x in r <==> x in s
    ensures |r| <= |s|
  {
    if |s| == 0 then []
    else
      var rest := Dedup(s[..|s| - 1]);
      assert forall x :: x in s <==> x in s[..|s| - 1] || x == s[|s| - 1];
      if s[|s| - 1] in rest then rest else rest + [s[|s| - 1]]
  }

  /** De-duplicating a list that already has no duplicates returns it unchanged. */
  lemma {:induction false} DedupOfDistinct<T(!new)>(s: seq<T>)
    requires Distinct(s)
    ensures Dedup(s) == s
  {
    if |s| > 0 {
      DedupOfDistinct(s[..|s| - 1]);
      assert s[..|s| - 1] + [s[|s| - 1]] == s;
    }
  }

  /** De-duplication is idempotent. */
  lemma DedupIdempotent<T(!new)>(s: seq<T>)
    ensures Dedup(Dedup(s)) == Dedup(s)
  {
    DedupOfDistinct(Dedup(s));
  }

  /** De-duplicating `a + b` when `a` has no duplicates keeps `a` in front and
      only appends elements of `b` that are new. */
  lemma {:induction false} DedupExtends<T(!new)>(a: seq<T>, b: seq<T>)
    requires Distinct(a)
    ensures a <= Dedup(a + b)
    ensures forall x :: x in b && x !in a ==> x in Dedup(a + b)[|a|..]
    decreases |b|
  {
    if |b| == 0 {
      assert a + b == a;
      DedupOfDistinct(a);
    } else {
      var b' := b[..|b| - 1];
      assert (a + b)[..|a + b| - 1] == a + b';
      DedupExtends(a, b');
      var r := Dedup(a + b);
      var r' := Dedup(a + b');
      assert r == r' || r == r' + [b[|b| - 1]];
      forall x | x in b && x !in a
        ensures x in r[|a|..]
      {
        assert x in r;
        var k :| 0 <= k < |r| && r[k] == x;
        assert r[|a|..][k - |a|] == x;
      }
    }
  }

  /** A round of generation that produces at least one new candidate strictly
      grows a duplicate-free pool. */
  lemma DedupGrows<T(!new)>(a: seq<T>, b: seq<T>, x: T)
    requires Distinct(a) && x in b && x !in a
    ensures |Dedup(a + b)| > |a|
  {
    DedupExtends(a, b);
  }
}

=== FILE: variations.dfy ===
/**
 `generate_password_variations`: from one base text, a fixed list of
 transformed candidates, each padded with random characters when short and
 then cut to exactly `length` characters.

 Variations 1 to 5 are the same in both source files and make up the whole
 list of the older generator; the current generator appends variations 6 to 8,
 which use the birth month and day. Every `random.choices` call is a string
 parameter constrained by `Drawn` to its alphabet and its `k`.
 */
module Variations {
  import opened Chars
  import opened PyStr

  /** The profile's numbers as the generator formats them: `str(birth_year)`,
      `str(birth_month).zfill(2)`, `str(birth_day).zfill(2)`, `str(favorite_number)`. */
  datatype Numbers = Numbers(year: string, month: string, day: string, favorite: string)

  function NumbersOf(birthYear: int, birthMonth: int, birthDay: int, favoriteNumber: int): Numbers {
    Numbers(IntToStr(birthYear), ZFill(IntToStr(birthMonth), 2),
            ZFill(IntToStr(birthDay), 2), IntToStr(favoriteNumber))
  }

  /** The formatted numbers never contain a space, and a validated month or day
      is formatted as exactly two digits with the same value. */
  lemma NumbersOfShape(birthYear: int, birthMonth: int, birthDay: int, favoriteNumber: int)
    ensures SpaceFree(NumbersOf(birthYear, birthMonth, birthDay, favoriteNumber))
    ensures 1 <= birthMonth <= 12 ==>
      var m := NumbersOf(birthYear, birthMonth, birthDay, favoriteNumber).month;
      |m| == 2 && AllDigits(m) && DigitsValue(m) == birthMonth
    ensures 1 <= birthDay <= 31 ==>
      var dd := NumbersOf(birthYear, birthMonth, birthDay, favoriteNumber).day;
      |dd| == 2 && AllDigits(dd) && DigitsValue(dd) == birthDay
  {
    ZFillSpaceFree(IntToStr(birthMonth), 2);
    ZFillSpaceFree(IntToStr(birthDay), 2);
    if 1 <= birthMonth <= 12 {
      ZFillKeepsValue(birthMonth, 2);
    }
    if 1 <= birthDay <= 31 {
      ZFillKeepsValue(birthDay, 2);
    }
  }

  predicate SpaceFree(n: Numbers) {
    ' ' !in n.year && ' ' !in n.month && ' ' !in n.day && ' ' !in n.favorite
  }

  lemma ZFillSpaceFree(s: string, width: int)
    requires ' ' !in s
    ensures ' ' !in ZFill(s, width)
  {
    if |s| < width && |s| > 0 && (s[0] == '+' || s[0] == '-') {
      assert ZFill(s, width) == [s[0]] + Zeros(width - |s|) + s[1..];
      assert ' ' !in s[1..] by {
        assert forall i :: 0 <= i < |s[1..]| ==> s[1..][i] == s[i + 1];
      }
    }
  }

  /** Random draws of variations 1 to 5. */
  datatype CoreDraws = CoreDraws(
    digits1: string, pad1: string,
    specials2: string, pad2: string,
    letters3: string, pad3: string,
    pad4: string,
    pad5: string)

  /** Random draws of variations 6 to 8. */
  datatype BirthdayDraws = BirthdayDraws(
    letters6: string, pad6: string,
    letters7: string, pad7: string,
    pad8: string)

  /** Upper-case at even positions, lower-case at odd ones. */
  function AlternateCase(s: string): (r: string)
    ensures |r| == |s|
    ensures forall i :: 0 <= i < |s| ==> r[i] == (if i % 2 == 0 then ToUpper(s[i]) else ToLower(s[i]))
  {
    seq(|s|, i requires 0 <= i < |s| => if i % 2 == 0 then ToUpper(s[i]) else ToLower(s[i]))
  }

  // The texts each variation builds before padding; `c` is the cleaned base.
  function Stem1(c: string, d: CoreDraws): string { c + d.digits1 }
  function Stem2(c: string, n: Numbers, d: CoreDraws): string { c + d.specials2 + n.favorite }
  function Stem3(c: string, n: Numbers, d: CoreDraws): string { Take(c, 3) + n.year + Drop(c, 3) + d.letters3 }
  function Stem4(c: string): string { AlternateCase(c) }
  function Stem5(c: string, n: Numbers): string { Take(c, |c| / 2) + n.favorite + Drop(c, |c| / 2) }
  function Stem6(c: string, n: Numbers, b: BirthdayDraws): string { c + n.month + n.day + b.letters6 }
  function Stem7(c: string, n: Numbers, b: BirthdayDraws): string { c + TakeLast(n.year, 2) + b.letters7 }
  function Stem8(c: string, n: Numbers): string { Take(c, 2) + n.month + Slice(c, 2, 4) + n.day + Drop(c, 4) }

  /** `if len(v) < length: v += pad` then `v[:length]`, where `pad` holds the
      `length - len(v)` random characters drawn only when `v` is short. */
  function Finish(stem: string, pad: string, length: int): (r: string)
    requires |pad| == Max(0, length - |stem|)
    ensures length >= 0 ==> |r| == length
    ensures r <= stem + pad
    ensures forall x :: x in r ==> x in stem || x in pad
    ensures length < 0 ==> r == stem[..Max(0, |stem| + length)]
  {
    Take(if |stem| < length then stem + pad else stem, length)
  }

  /** The draws fit the calls variations 1 to 5 make on cleaned base `c`. */
  predicate CoreFit(c: string, n: Numbers, length: int, d: CoreDraws) {
    && Drawn(d.digits1, 4, Digits)
    && Drawn(d.pad1, length - |Stem1(c, d)|, LettersDigits)
    && Drawn(d.specials2, 2, FewSpecials)
    && Drawn(d.pad2, length - |Stem2(c, n, d)|, Letters)
    && Drawn(d.letters3, 2, Letters)
    && Drawn(d.pad3, length - |Stem3(c, n, d)|, Digits)
    && Drawn(d.pad4, length - |Stem4(c)|, DigitsOr3)
    && Drawn(d.pad5, length - |Stem5(c, n)|, LettersDigits)
  }

  /** The draws fit the calls variations 6 to 8 make on cleaned base `c`. */
  predicate BirthdayFit(c: string, n: Numbers, length: int, b: BirthdayDraws) {
    && Drawn(b.letters6, 2, Letters)
    && Drawn(b.pad6, length - |Stem6(c, n, b)|, DigitsOr3)
    && Drawn(b.letters7, 2, Letters)
    && Drawn(b.pad7, length - |Stem7(c, n, b)|, DigitsOr5)
    && Drawn(b.pad8, length - |Stem8(c, n)|, LettersDigitsOr3)
  }

  /** Variation 4 has no length test: it always appends
      `random.choices(..., k=length - len(mixed))`, which is empty when `k <= 0`. */
  function AlternatingVariation(c: string, pad: string, length: int): (r: string)
    requires |pad| == Max(0, length - |c|)
    ensures length >= 0 ==> |r| == length
    ensures forall x :: x in r ==> x in Stem4(c) || x in pad
  {
    Take(Stem4(c) + pad, length)
  }

  /** Variations 1 to 5 of cleaned base `c`. */
  function FirstFive(c: string, n: Numbers, length: int, d: CoreDraws): (r: seq<string>)
    requires CoreFit(c, n, length, d)
    ensures |r| == 5
    ensures length >= 0 ==> forall i :: 0 <= i < 5 ==> |r[i]| == length
  {
    [ Finish(Stem1(c, d), d.pad1, length),
      Finish(Stem2(c, n, d), d.pad2, length),
      Finish(Stem3(c, n, d), d.pad3, length),
      AlternatingVariation(c, d.pad4, length),
      Finish(Stem5(c, n), d.pad5, length) ]
  }

  /** Variations 6 to 8 of cleaned base `c`. */
  function LastThree(c: string, n: Numbers, length: int, b: BirthdayDraws): (r: seq<string>)
    requires BirthdayFit(c, n, length, b)
    ensures |r| == 3
    ensures length >= 0 ==> forall i :: 0 <= i < 3 ==> |r[i]| == length
  {
    [ Finish(Stem6(c, n, b), b.pad6, length),
      Finish(Stem7(c, n, b), b.pad7, length),
      Finish(Stem8(c, n), b.pad8, length) ]
  }

  /** All random draws of one call. */
  datatype Draws = Draws(core: CoreDraws, birthday: BirthdayDraws)

  predicate Fits(n: Numbers, base: string, length: int, d: Draws) {
    CoreFit(CleanInfo(base), n, length, d.core) && BirthdayFit(CleanInfo(base), n, length, d.birthday)
  }

  /** The current generator's `generate_password_variations(base, length)`. */
  function Generate(n: Numbers, base: string, length: int, d: Draws): (r: seq<string>)
    requires Fits(n, base, length, d)
    ensures |r| == 8
    ensures length >= 0 ==> forall i :: 0 <= i < 8 ==> |r[i]| == length
  {
    var c := CleanInfo(base);
    FirstFive(c, n, length, d.core) + LastThree(c, n, length, d.birthday)
  }

  lemma PrefixSpaceFree(s: string, t: string)
    requires ' ' !in s && t <= s
    ensures ' ' !in t
  {
    assert forall i :: 0 <= i < |t| ==> t[i] == s[i];
  }

  lemma DrawnSpaceFree(s: string, k: int, alphabet: Alphabet)
    requires Drawn(s, k, alphabet) && !alphabet.Allows(' ')
    ensures ' ' !in s
  {
  }

  lemma SliceSpaceFree(c: string)
    requires ' ' !in c
    ensures ' ' !in Take(c, 2) && ' ' !in Take(c, 3) && ' ' !in Take(c, |c| / 2)
    ensures ' ' !in Drop(c, 3) && ' ' !in Drop(c, 4) && ' ' !in Drop(c, |c| / 2)
    ensures ' ' !in Slice(c, 2, 4)
  {
    assert c == Take(c, 2) + Slice(c, 2, 4) + Drop(c, 4);
    assert c == Take(c, 3) + Drop(c, 3);
    assert c == Take(c, |c| / 2) + Drop(c, |c| / 2);
  }

  lemma StemsSpaceFree(c: string, n: Numbers, d: CoreDraws, b: BirthdayDraws)
    requires SpaceFree(n) && ' ' !in c
    requires ' ' !in d.digits1 && ' ' !in d.specials2 && ' ' !in d.letters3
    requires ' ' !in b.letters6 && ' ' !in b.letters7
    ensures ' ' !in Stem1(c, d) && ' ' !in Stem2(c, n, d) && ' ' !in Stem3(c, n, d)
    ensures ' ' !in Stem4(c) && ' ' !in Stem5(c, n)
    ensures ' ' !in Stem6(c, n, b) && ' ' !in Stem7(c, n, b) && ' ' !in Stem8(c, n)
  {
    SliceSpaceFree(c);
    assert ' ' !in TakeLast(n.year, 2) by {
      assert n.year == n.year[..|n.year| - |TakeLast(n.year, 2)|] + TakeLast(n.year, 2);
    }
  }

  lemma FirstFiveSpaceFree(c: string, n: Numbers, length: int, e: CoreDraws)
    requires CoreFit(c, n, length, e) && SpaceFree(n) && ' ' !in c
    ensures forall v :: v in FirstFive(c, n, length, e) ==> ' ' !in v
  {
    DrawnSpaceFree(e.digits1, 4, Digits);
    DrawnSpaceFree(e.specials2, 2, FewSpecials);
    DrawnSpaceFree(e.letters3, 2, Letters);
    StemsSpaceFree(c, n, e, BirthdayDraws([], [], [], [], []));
    DrawnSpaceFree(e.pad1, length - |Stem1(c, e)|, LettersDigits);
    DrawnSpaceFree(e.pad2, length - |Stem2(c, n, e)|, Letters);
    DrawnSpaceFree(e.pad3, length - |Stem3(c, n, e)|, Digits);
    DrawnSpaceFree(e.pad4, length - |Stem4(c)|, DigitsOr3);
    DrawnSpaceFree(e.pad5, length - |Stem5(c, n)|, LettersDigits);
  }

  lemma LastThreeSpaceFree(c: string, n: Numbers, length: int, b: BirthdayDraws)
    requires BirthdayFit(c, n, length, b) && SpaceFree(n) && ' ' !in c
    ensures forall v :: v in LastThree(c, n, length, b) ==> ' ' !in v
  {
    DrawnSpaceFree(b.letters6, 2, Letters);
    DrawnSpaceFree(b.letters7, 2, Letters);
    StemsSpaceFree(c, n, CoreDraws([], [], [], [], [], [], [], []), b);
    DrawnSpaceFree(b.pad6, length - |Stem6(c, n, b)|, DigitsOr3);
    DrawnSpaceFree(b.pad7, length - |Stem7(c, n, b)|, DigitsOr5);
    DrawnSpaceFree(b.pad8, length - |Stem8(c, n)|, LettersDigitsOr3);
  }

  /** No generated variation contains a space: the base is cleaned, the
      numbers have none and no draw alphabet has one. */
  lemma GenerateSpaceFree(n: Numbers, base: string, length: int, d: Draws)
    requires Fits(n, base, length, d)
    ensures SpaceFree(n) ==> forall v :: v in Generate(n, base, length, d) ==> ' ' !in v
  {
    if SpaceFree(n) {
      FirstFiveSpaceFree(CleanInfo(base), n, length, d.core);
      LastThreeSpaceFree(CleanInfo(base), n, length, d.birthday);
    }
  }

  /** When the stem fits in `length`, the finished variation starts with the
      whole stem. */
  lemma FinishKeepsStem(stem: string, pad: string, length: int)
    requires |pad| == Max(0, length - |stem|) && length >= |stem|
    ensures stem <= Finish(stem, pad, length)
  {
    assert Finish(stem, pad, length) == stem + pad;
  }

  /** Variation 1 starts with as much of the cleaned base as fits, followed by
      its four random digits, and every padding position after them holds a
      letter or digit. */
  lemma FirstVariationShape(c: string, digits: string, pad: string, length: int)
    requires Drawn(digits, 4, Digits)
    requires Drawn(pad, length - |c + digits|, LettersDigits) && length >= 0
    ensures Take(c, length) <= Finish(c + digits, pad, length)
    ensures forall i :: |c| <= i < Min(|c| + 4, length) ==> IsDigit(Finish(c + digits, pad, length)[i])
    ensures forall i :: |c| + 4 <= i < length ==> LettersDigits.Allows(Finish(c + digits, pad, length)[i])
  {
    var v := Finish(c + digits, pad, length);
    var full := c + digits + pad;
    assert v <= full;
    forall i | |c| <= i < Min(|c| + 4, length)
      ensures IsDigit(v[i])
    {
      assert v[i] == full[i] == digits[i - |c|];
    }
    forall i | |c| + 4 <= i < length
      ensures LettersDigits.Allows(v[i])
    {
      assert v[i] == full[i] == pad[i - |c| - 4];
    }
  }

  /** Variation 2 is the base, two of "!@#$%^&*" and the favourite number, in
      that order, whenever they fit. */
  lemma SpecialsThenFavorite(c: string, n: Numbers, d: CoreDraws, length: int)
    requires CoreFit(c, n, length, d) && length >= |Stem2(c, n, d)|
    ensures var v := Finish(Stem2(c, n, d), d.pad2, length);
      && v[..|c|] == c
      && (forall i :: |c| <= i < |c| + 2 ==> FewSpecials.Allows(v[i]))
      && v[|c| + 2..|c| + 2 + |n.favorite|] == n.favorite
  {
    var v := Finish(Stem2(c, n, d), d.pad2, length);
    FinishKeepsStem(Stem2(c, n, d), d.pad2, length);
    assert v[..|Stem2(c, n, d)|] == c + d.specials2 + n.favorite;
    forall i | |c| <= i < |c| + 2
      ensures FewSpecials.Allows(v[i])
    {
      assert v[i] == d.specials2[i - |c|];
    }
  }

  /** Variation 3 puts the birth year right after the first three characters of
      a base that has at least three, when it fits. */
  lemma YearAtThree(c: string, n: Numbers, d: CoreDraws, length: int)
    requires CoreFit(c, n, length, d) && |c| >= 3 && length >= |Stem3(c, n, d)|
    ensures var v := Finish(Stem3(c, n, d), d.pad3, length);
      v[..3] == c[..3] && v[3..3 + |n.year|] == n.year
  {
    var v := Finish(Stem3(c, n, d), d.pad3, length);
    FinishKeepsStem(Stem3(c, n, d), d.pad3, length);
    assert Take(c, 3) == c[..3];
    assert v[..3 + |n.year|] == c[..3] + n.year;
  }

  /** Variation 6 puts the zero-filled month and then the day right after the
      base, when they fit. */
  lemma BirthdayAfterBase(c: string, n: Numbers, b: BirthdayDraws, length: int)
    requires BirthdayFit(c, n, length, b) && length >= |Stem6(c, n, b)|
    ensures var v := Finish(Stem6(c, n, b), b.pad6, length);
      && v[..|c|] == c
      && v[|c|..|c| + |n.month|] == n.month
      && v[|c| + |n.month|..|c| + |n.month| + |n.day|] == n.day
  {
    var v := Finish(Stem6(c, n, b), b.pad6, length);
    FinishKeepsStem(Stem6(c, n, b), b.pad6, length);
    assert v[..|c| + |n.month| + |n.day|] == c + n.month + n.day;
  }

  /** Variation 7 puts the last two characters of the birth year right after
      the base, when they fit. */
  lemma YearSuffixAfterBase(c: string, n: Numbers, b: BirthdayDraws, length: int)
    requires BirthdayFit(c, n, length, b) && length >= |Stem7(c, n, b)| && |n.year| >= 2
    ensures var v := Finish(Stem7(c, n, b), b.pad7, length);
      v[..|c|] == c && v[|c|..|c| + 2] == n.year[|n.year| - 2..]
  {
    var v := Finish(Stem7(c, n, b), b.pad7, length);
    FinishKeepsStem(Stem7(c, n, b), b.pad7, length);
    var y := TakeLast(n.year, 2);
    assert y == n.year[|n.year| - 2..] by {
      assert n.year[..|n.year| - 2] + y == n.year;
    }
    assert v[..|c| + 2] == c + y;
  }

  /** Variation 8 interleaves a base of at least four characters: two base
      characters, the month, the next two, the day, then the rest. */
  lemma MonthDayPattern(c: string, n: Numbers, b: BirthdayDraws, length: int)
    requires BirthdayFit(c, n, length, b) && |c| >= 4 && length >= |Stem8(c, n)|
    ensures var v := Finish(Stem8(c, n), b.pad8, length);
      var m := |n.month|;
      && v[..2] == c[..2]
      && v[2..2 + m] == n.month
      && v[2 + m..4 + m] == c[2..4]
      && v[4 + m..4 + m + |n.day|] == n.day
      && v[4 + m + |n.day|..|c| + m + |n.day|] == c[4..]
  {
    var v := Finish(Stem8(c, n), b.pad8, length);
    FinishKeepsStem(Stem8(c, n), b.pad8, length);
    assert Take(c, 2) == c[..2] && Slice(c, 2, 4) == c[2..4] && Drop(c, 4) == c[4..];
    assert v[..|Stem8(c, n)|] == c[..2] + n.month + c[2..4] + n.day + c[4..];
  }

  /** Variation 4 alternates case over the part of the base that fits: upper at
      even positions, lower at odd ones. */
  lemma AlternatingCase(c: string, pad: string, length: int)
    requires |pad| == Max(0, length - |c|)
    ensures forall i :: 0 <= i < Min(|c|, length) ==>
      AlternatingVariation(c, pad, length)[i] == (if i % 2 == 0 then ToUpper(c[i]) else ToLower(c[i]))
  {
    var v := AlternatingVariation(c, pad, length);
    forall i | 0 <= i < Min(|c|, length)
      ensures v[i] == (if i % 2 == 0 then ToUpper(c[i]) else ToLower(c[i]))
    {
      assert v[i] == (Stem4(c) + pad)[i];
    }
  }

  /** Variation 5 is a prefix of the base with the favourite number inserted at
      its midpoint, then padding; when everything fits, the favourite number
      sits exactly at position `|c| / 2`. */
  lemma FavoriteInMiddle(c: string, n: Numbers, pad: string, length: int)
    requires |pad| == Max(0, length - |Stem5(c, n)|)
    ensures Finish(Stem5(c, n), pad, length) <= c[..|c| / 2] + n.favorite + c[|c| / 2..] + pad
    ensures length >= |c| + |n.favorite| ==>
      && Finish(Stem5(c, n), pad, length)[..|c| / 2] == c[..|c| / 2]
      && Finish(Stem5(c, n), pad, length)[|c| / 2..|c| / 2 + |n.favorite|] == n.favorite
  {
    var mid := |c| / 2;
    var f := n.favorite;
    assert Take(c, mid) == c[..mid] && Drop(c, mid) == c[mid..];
    var v := Finish(Stem5(c, n), pad, length);
    var full := c[..mid] + f + c[mid..] + pad;
    assert Stem5(c, n) + pad == full;
    assert v <= full;
    if length >= |c| + |f| {
      assert |v| >= mid + |f|;
      assert v[..mid + |f|] == full[..mid + |f|];
      assert full[..mid + |f|] == c[..mid] + f;
    }
  }
}
